=== FILE: README.md ===
# Packaging list and proforma invoice helpers, modelled in Dafny

The Flask application behind the Zaka report generator keeps its real logic in
small helpers nested inside its request handlers. This project models those
helpers as pure Dafny functions and methods and proves what they do:

- `_parse_tokens`, the parser for box and item reference fields such as
  `"A, 2, 1-3"` (module `Tokens`);
- `_normalize_a1_rows`, the A2 description and `box_lookup`: Module A, which
  describes the contents of the boxes (module `ModuleA`);
- the Module B normaliser `item_to_boxes` and its inverse `box_to_items`
  (module `ModuleB`);
- the item-hierarchy pivot of `create_packaging_list`: items and boxes sorted
  by `_sort_key`, the One-to-One / One-to-Many / Many-to-One relationship, and
  the associated box details with their defaults (modules `Ordering`, `Pivot`);
- the table of `packaging_list_print`: the distinct-box count, the stable sort
  by `(itemNos, boxNos, description)`, the grouping into runs of equal
  `itemNos`, and the merged description cell (module `PrintView`);
- `number_to_words` with Indian grouping: Crore, Lakh and Thousand (module
  `NumberWords`);
- the currency code and conversion divisor of the proforma invoice handlers,
  and the character filter their `_sf` applies to amounts (module `Currency`).

Supporting modules: `Wrappers` (Option, Result, and the Python errors that
matter here), `Text` (ASCII `strip`, `split`, `join`, `isdigit`, `upper`) and
`Fields` (JSON scalars, `dict.get`, truthiness and `or`).

Python sorting with int-or-str keys raises `TypeError` when an `int` key meets
a `str` key. The model returns an explicit `Err(TypeError)` in that case and
defines no order across kinds. The handlers turn that error into an HTTP 400.
Python's `sorted` is stable, so keys that compare equal (`"7"` and `"007"`)
keep the order in which they are iterated. The keys of `item_to_boxes` are
iterated in insertion order: the order in which each item first occurs in
Module B. The model computes that order and sorts it deterministically. A box
set is a Python `set`, whose iteration order depends on hashing, so the order
of equal-key boxes is left open.

Each operation has a partner property. The token parser is idempotent and
compositional. The inverse index is unique and an involution. Sorting is shown
to be the only stable sorted arrangement. The grouping is the only exact cut
into maximal runs. `number_to_words` is read back by an independent reader of
the words, which recovers the amount.

## Model

| member | source | states |
|---|---|---|
| Fields.Sf | main.py:546-548 | the packaging `_sf` gives 0.0 exactly for a falsy value, and otherwise the float of the value's own text |
| Fields.TextOf | main.py:600 | `str(v or '')` is non-empty exactly when the value is truthy, and is then the value's own text |
| Tokens.ParseTokens | main.py:599-601 | a field that is blank once stripped gives no tokens |
| Tokens.ParseTokensAreTokens | main.py:599-618 | every emitted token is non-empty, stripped, free of commas and not itself a range |
| Tokens.ParseIgnoresOuterStrip | main.py:600-605 | stripping the whole field first changes nothing: the result is the expansion of its comma-separated pieces |
| Tokens.ParseConcat | main.py:604-618 | output order follows piece order: the tokens of `a,b` are the tokens of `a` followed by those of `b` |
| Tokens.ParseThree | main.py:604-618 | the tokens of three comma-joined fields are the three token lists in order |
| Tokens.ParseIdempotent | main.py:599-618 | re-parsing the comma-joined output gives the same tokens |
| Tokens.ParsePadded | main.py:600 | any whitespace before and after the whole field leaves the tokens unchanged |
| Tokens.RangeIsOnePiece | main.py:608-612 | `x-y` with digit sides is a single range piece whose sides are `x` and `y` |
| Tokens.RangeContents | main.py:608-616 | a digit range yields every integer from min to max, ascending, written in decimal |
| Tokens.SpanMembers | main.py:615 | the decimal text of n is in the span exactly when lo <= n <= hi |
| Tokens.RangeSymmetric | main.py:613-614 | `x-y` and `y-x` give the same tokens |
| Tokens.DoubleHyphenIsVerbatim | main.py:608-617 | only the first hyphen splits: a stripped, comma-free piece `x-y` whose right side holds another hyphen is kept verbatim |
| Tokens.LeadingHyphenIsVerbatim | main.py:608-617 | a stripped, comma-free piece starting with a hyphen has an empty left side and is kept verbatim |
| Tokens.TokenParsesToItself | main.py:599-618 | a field holding one token gives exactly that token |
| Tokens.PlainToken | main.py:605-617 | a stripped piece without comma or hyphen stands for itself |
| Tokens.DuplicatesKept | main.py:604-607 | pieces are stripped, empty pieces skipped and duplicates kept |
| Tokens.MixedField | main.py:604-617 | a field of two plain references and a range gives the two references followed by the whole span |
| Tokens.TokenIsFixedPoint | main.py:605-617 | an emitted token parsed again as a piece gives itself |
| Ordering.AtomOf | main.py:727-728 | a key is an int exactly for an all-digit text, and then it is the text's decimal value; otherwise it is the text itself |
| Ordering.AtomOfShowNat | main.py:727-728 | the decimal text of n, preceded by any number of zeros (none included), has key n |
| Ordering.KeyLessTransitive | main.py:376-383 | tuple-key comparison is transitive |
| Ordering.KeyLessTotal | main.py:376-383 | two distinct comparable keys are ordered one way or the other |
| Ordering.SortBy | main.py:376-383 | the sort returns a permutation of its input in key order |
| Ordering.SortStable | main.py:376-383 | elements with equal keys keep their input order |
| Ordering.SortedUnique | main.py:376-383 | two sorted arrangements with the same elements per key, in the same order, are equal |
| Ordering.StableSortIsSortBy | main.py:376-383 | every stable sorted arrangement of comparable elements is the one the model computes |
| Ordering.MixedIffIncomparable | main.py:727-730 | a set of tokens raises TypeError when sorted exactly when it holds an int-keyed and a str-keyed token |
| Ordering.SortTokens | main.py:731 | sorting a set of tokens fails with TypeError exactly on mixed keys, and otherwise lists the set in key order |
| Ordering.SortedTokensDistinct | main.py:731 | a sorted listing of a set lists each member exactly once |
| ModuleA.BoxRow | main.py:573-574 | a nested box's row takes `boxNumber`, failing that `boxNumbers`, and is the empty string exactly when neither is set; its description is the section's |
| ModuleA.FlatRow | main.py:586-588 | a flat entry's row takes `boxNumbers`, failing that `boxNumber`, and is the empty string exactly when neither is set |
| ModuleA.NormalizeA1 | main.py:555-597 | every normalised row's box field is a string (never null or missing) |
| ModuleA.SectionRowsSpec | main.py:567-583 | a section yields one row per box object, in order, each with the material's description |
| ModuleA.NormalizeA1Append | main.py:563-597 | normalisation handles each entry independently |
| ModuleA.MaterialDescriptions | main.py:643-646 | the kept descriptions are non-blank and stripped, at most one per material |
| ModuleA.MaterialDescriptionsMembers | main.py:643-646 | a text is kept exactly when it is non-blank and is the stripped description of some object material |
| ModuleA.A2DescriptionNA | main.py:655 | the A2 description reads "N/A" exactly when no material has a description or the only one is "N/A" |
| ModuleA.AssignAll | main.py:688-689 | assigning a value to every token gives those tokens that value and leaves other keys unchanged |
| ModuleA.MaterialsLoop | main.py:673-676 | the A2 weight loop raises AttributeError exactly when some material is not an object |
| ModuleA.WeightLoop | main.py:665-679 | the weight loop raises exactly for A2 or A3 data that is not an object (AttributeError), A2 `materials` that cannot be iterated (TypeError), or an A2 material that is not an object (AttributeError) |
| ModuleA.ObjectsAll | main.py:643-647 | after the weight loop has let an A2 record through, the aggregation's object guard skips no material |
| ModuleA.BoxLookup | main.py:684-696 | for A2 and A3 the lookup holds exactly the record's box tokens, each with that record's details; another type, or data that is not an object, gives an empty lookup |
| ModuleA.LastRowWith | main.py:690-693 | finds the last row naming a box, or reports that no row names it |
| ModuleA.LastRowWins | main.py:690-693 | for A1 a box maps to the details of the last row naming it, and boxes no row names are absent |
| ModuleB.Add | main.py:706 | `setdefault(k, set()).add(v)` adds exactly the pair (k, v) and never leaves an empty set |
| ModuleB.AddAll | main.py:699-717 | adding pairs in order lists exactly the old pairs plus the added ones |
| ModuleB.Product | main.py:704-706 | the nested loops produce exactly the pairs of a parsed box token and a parsed item token |
| ModuleB.PairsLinked | main.py:699-717 | a pair is produced exactly when some object row names that item and that box |
| ModuleB.ItemToBoxes | main.py:699-717 | box x is listed under item i exactly when some row names both, and no item has an empty set |
| ModuleB.FirstAppearanceSpec | main.py:699-717 | the first-occurrence listing of a pair sequence's items holds each item once, and an earlier entry occurs before every occurrence of a later one |
| ModuleB.ItemOrder | main.py:699-717 | the keys of `item_to_boxes` in insertion order: each key once, and each key first named in Module B before every mention of the keys after it |
| ModuleB.B3CrossProduct | main.py:714-717 | for B3 the index is the full cross product of the parsed items and the parsed boxes |
| ModuleB.Inverse | main.py:719-723 | the inverse lists a under b exactly when the index lists b under a, with no empty sets |
| ModuleB.InverseUnique | main.py:719-723 | an index has only one inverse without empty sets |
| ModuleB.InverseInvolution | main.py:719-723 | inverting twice gives back the index |
| ModuleB.InvertIndex | main.py:720-723 | the handler's nested loops build exactly the inverse |
| Pivot.Classify | main.py:733-738 | Many-to-One exactly when some listed box holds several items; One-to-Many only with several boxes, none shared; One-to-One only with at most one box |
| Pivot.ClassifyMatches | main.py:733-738 | the relationship is Many-to-One when some box of the item holds another item; otherwise it is One-to-Many when the item has several boxes; otherwise One-to-One |
| Pivot.Associate | main.py:741-757 | a box missing from the lookup gets description "N/A", qty 0, no dimensions and zero weights; otherwise its record's description, qty, dimensions and weights |
| Pivot.MakeHierarchy | main.py:741-763 | the associated boxes follow the sorted box list, one entry per box |
| Pivot.MakeHierarchyOf | main.py:730-763 | built from any sorted listing of the item's set, the hierarchy lists each of its boxes once, in key order, with relationship and details |
| Pivot.SortBoxSets | main.py:730-731 | sorting every item's box set fails with TypeError exactly when some set mixes key kinds |
| Pivot.SortableByItems | main.py:730-731 | nothing raises TypeError exactly when the item keys and every box set are each of one kind |
| Pivot.MakeHierarchies | main.py:726-763 | one hierarchy per item, in the items' order |
| Pivot.MakeHierarchiesPivoted | main.py:726-763 | hierarchies built from the sorted items and their sorted box lists form the pivoted result |
| Pivot.BuildHierarchies | main.py:726-763 | the pivot fails with TypeError exactly when some sorted set mixes key kinds; otherwise it gives one hierarchy per item, and the items are the keys in iteration order after a stable sort |
| Pivot.CreatePackagingList | main.py:665-763 | from the posted modules: the weight loop's exception if it raises; otherwise `itemHierarchies` of the Module B index with details from the Module A lookup, or TypeError exactly when a sorted set mixes key kinds; the items are the keys of `item_to_boxes` in their insertion order after a stable sort |
| Pivot.BoxesOncePerHierarchy | main.py:730-757 | every box of an item appears in exactly one entry of its hierarchy, and no other box does |
| PrintView.NamesBoxSnoc | main.py:362-366 | the boxes named after one more row are the earlier ones plus that row's non-empty stripped parts |
| PrintView.TotalBoxes | main.py:355-368 | the box count is zero exactly when no row names a box |
| PrintView.UniqueBoxes | main.py:355-366 | `unique_boxes` holds exactly the non-empty stripped comma-separated parts of the rows' `boxNos` |
| PrintView.TotalBoxesOrderFree | main.py:355-368 | the box count does not depend on row order or on repeated rows |
| PrintView.SortItems | main.py:370-383 | the sort fails with TypeError exactly when two rows' keys are incomparable; otherwise it is a stable sort by the key tuple |
| PrintView.StepExtends | main.py:402-404 | a row with the current group's `itemNos` joins that group and keeps the grouping exact |
| PrintView.StepOpens | main.py:405-411 | a row with another `itemNos` opens a new group and keeps the grouping exact |
| PrintView.StepGroups | main.py:385-411 | each loop iteration keeps the grouping exact |
| PrintView.GroupItems | main.py:385-411 | the groups concatenate back to the rows, share `itemNos` within a group, differ between neighbours, and each has `rowspan` equal to its row count |
| PrintView.GroupsUnique | main.py:385-411 | only one cut of the rows into maximal runs of equal `itemNos` exists |
| PrintView.Finish | main.py:413-418 | the description is merged exactly when all rows of the group show the same stripped description; a merged cell spans the group, and otherwise it is blank with span 1 |
| PrintView.MergedIffOneDescription | main.py:413-418 | the cell is merged exactly when the group's rows show a single description |
| PrintView.FinishAll | main.py:413-418 | each group is finished independently |
| PrintView.PrintTable | main.py:355-418 | the table fails exactly on incomparable keys; otherwise it has the distinct-box count and the finished groups of the sorted rows |
| NumberWords.LessThanThousand | main.py:31-41 | `convert_less_than_thousand` is defined exactly below 1000 |
| NumberWords.LessThanThousandJoin | main.py:31-41 | below 1000 its text is the hundreds, tens and ones words joined by single blanks |
| NumberWords.ReadBelowThousand | main.py:31-41 | reading the words of n below 1000 gives n |
| NumberWords.ReadIntegerWords | main.py:43-67 | reading the Crore, Lakh, Thousand and remainder groups gives back n |
| NumberWords.IntegerWordsAreWords | main.py:43-67 | each group contributes blank-free words |
| NumberWords.ConvertIntegerJoin | main.py:43-67 | for 0 < n < 10^10 `convert_integer` is the group words joined by single blanks |
| NumberWords.NumberToWordsJoin | main.py:43-76 | the text is the group words followed by "Rupees", joined by single blanks |
| NumberWords.NumberToWordsRoundTrip | main.py:11-76 | for 0 <= n < 10^10 the text is defined and reads back as n |
| NumberWords.ConvertInteger | main.py:43-67 | `convert_integer` fails exactly from 10^10 on, gives "Zero" for 0 and the empty text for a negative amount |
| NumberWords.NumberToWords | main.py:11-76 | `number_to_words` fails exactly from 10^10 on, gives "Zero" (without " Rupees") for 0, and " Rupees" for a negative amount |
| NumberWords.NumberToWordsInjective | main.py:11-76 | distinct amounts from 0 up to 10^10 get distinct texts (from 10^10 on there is no text) |
| Currency.SelectCode | main.py:1009 | the code is the requested code if truthy, else the stored code if truthy, else INR, each stripped and upper-cased |
| Currency.NormalIdempotent | main.py:886 | a stripped, upper-cased code is its own normal form |
| Currency.TrimUpper | main.py:886 | stripping and upper-casing commute |
| Currency.CodeIgnoresBlanksAndCase | main.py:886 | blanks around the requested code and the case of its letters do not change the code |
| Currency.BlankCodeNotDefaulted | main.py:1009-1014 | a requested code of blanks only is truthy: the code is empty and the divisor 1, without falling back |
| Currency.Divisor | main.py:888-893 | the divisor is at least 1, and is 1 exactly for a code without a rate |
| Currency.DivisorIsRate | main.py:1010-1014 | the divisor is 90 for USD, 286 for DINAR, DNR and KWD, and 1 for any other code |
| Currency.Clean | main.py:881 | the cleaned text is no longer than the input and holds only digits, `.` and `-` |
| Currency.CleanAppend | main.py:881 | cleaning works character by character |
| Currency.CleanFixed | main.py:881 | text of kept characters only, with every `-` wherever it stands, is unchanged |
| Currency.CleanIdempotent | main.py:881 | cleaning twice is cleaning once |
| Currency.CleanCounts | main.py:881 | each kept character occurs as often as in the input, and no other character occurs |
| Currency.DroppedPrefix | main.py:881 | a prefix without kept characters is dropped |
| Currency.ProformaSf | main.py:874-884 | None gives 0.0; text gives the float of its cleaning, or 0.0 when the cleaning is empty |
| Currency.ProformaSfOfClean | main.py:874-884 | pre-cleaning changes nothing, and on clean text the proforma `_sf` agrees with the packaging one |

## Left out

- Flask routes, template rendering, file serving and `wsgi.py`: request plumbing with no logic of its own.
- The database models, sessions, commits and schema migrations: persistence.
- Writing `data.json` and the `packing_list_*.json` files: side effects only.
- `prepare_invoice_data` from `ZC.logic`: that module is not part of this model.
- Float arithmetic: the weight totals, the A2 quantity and weight sums, the
  `_safe_max` dimension maxima, the proforma divisions and rounding, and the
  paise of `number_to_words`. These are binary floating-point behaviours.
- ModuleA.BoxLookup: for A2 the aggregated quantity, weights and dimensions
  are a parameter of the input rather than computed, because they are float
  sums and maxima.
- Fields.Sf, Currency.ProformaSf: the parse of the text into a float is kept
  symbolic as `FloatOf(text)`, and a text that does not parse reads as 0.0
  only in that symbol's meaning.
- NumberWords.NumberToWords: only whole amounts are modelled. The string
  guards `'0'` and `'0.00'` and the failed-parse `"Zero"` are not modelled,
  because they depend on float parsing.
- Dates (`strptime`, `strftime`): library behaviour.
- Python's Unicode-aware `isdigit`, `strip` and `upper`: ASCII only.
- JSON numbers and booleans as field values: a field is absent, null or a
  string. Print items are objects.
- Non-object values are modelled both where the handler skips them and where
  it raises. It skips A1 entries, section boxes and Module B rows. It raises on
  an A2 material and on A2 or A3 data.
- ModuleA.WeightLoop: only the kind of the exception is modelled, not the
  message the handler returns with HTTP 400.
- ModuleA.BoxLookup: for A2 `materials` that cannot be iterated it returns an
  empty lookup. That lookup is never consulted, because the weight loop has
  already raised.
- The proforma `_sf` clause for numbers sent as JSON numbers (`float(v)` on an
  int or float) is left out together with JSON numbers.
- The `_sf` cleaning keeps every `-`, not only a leading one. The model follows
  the code (`Currency.CleanFixed`).

=== FILE: currency.dfy ===
/**
  The currency side of the proforma invoice handlers: which currency code an
  invoice is stored under, the divisor that converts the amounts entered in
  rupees into that currency, and the text cleaning the handlers' `_sf` helper
  applies before parsing an amount.

  The divisions and the rounding to two places are float arithmetic and are not
  modelled; the divisor is.
 */
module Currency {
  import opened Text
  import opened Fields

  // ---------------------------------------------------------------------------
  // The currency code

  /** `.strip().upper()`. */
  function Normal(s: string): string {
    Upper(Trim(s))
  }

  /** The currency code of `(requested or stored or 'INR').strip().upper()`.
      The create handler has no stored code: it passes `Absent`. */
  function SelectCode(requested: Field, stored: Field): (code: string)
    ensures Truthy(requested) ==> code == Normal(requested.s)
    ensures !Truthy(requested) && Truthy(stored) ==> code == Normal(stored.s)
    ensures !Truthy(requested) && !Truthy(stored) ==> code == "INR"
  {
    Normal(TextOf(Or(requested, Or(stored, Text("INR")))))
  }

  /** The rates the handlers know, in rupees per unit of the currency. */
  const Rates: map<string, nat> := map["USD" := 90, "DINAR" := 286, "DNR" := 286, "KWD" := 286]

  /** The conversion divisor for a normalised code: the rate of a listed code,
      and 1 (no conversion) for every other code. */
  function Divisor(code: string): (d: nat)
    ensures d >= 1
    ensures d == 1 <==> code !in Rates
  {
    if code in Rates then Rates[code] else 1
  }

  /** The rates the handlers compare against: 90 for USD, 286 for the three
      names of the Kuwaiti dinar, and 1 for every other code, INR included. */
  lemma DivisorIsRate(code: string)
    ensures Divisor("USD") == 90
    ensures Divisor("DINAR") == 286 && Divisor("DNR") == 286 && Divisor("KWD") == 286
    ensures code != "USD" && code != "DINAR" && code != "DNR" && code != "KWD" ==> Divisor(code) == 1
  {
  }

  lemma UpperCharSpace(c: char)
    ensures IsSpace(UpperChar(c)) <==> IsSpace(c)
    ensures UpperChar(UpperChar(c)) == UpperChar(c)
  {
  }

  /** Stripping and upper-casing commute. */
  lemma TrimUpper(s: string)
    ensures Trim(Upper(s)) == Upper(Trim(s))
  {
    var pre, post := TrimParts(s);
    var m := Trim(s);
    assert Upper(s) == Upper(pre) + Upper(m) + Upper(post);
    forall k | 0 <= k < |pre|
      ensures IsSpace(Upper(pre)[k])
    {
      UpperCharSpace(pre[k]);
    }
    forall k | 0 <= k < |post|
      ensures IsSpace(Upper(post)[k])
    {
      UpperCharSpace(post[k]);
    }
    if |m| > 0 {
      UpperCharSpace(m[0]);
      UpperCharSpace(m[|m| - 1]);
    }
    TrimOfPaddedCore(Upper(pre), Upper(m), Upper(post));
  }

  /** A normalised code is its own normal form. */
  lemma NormalIdempotent(s: string)
    ensures Normal(Normal(s)) == Normal(s)
  {
    var m := Trim(s);
    TrimUpper(m);
    TrimIdempotent(s);
    forall k | 0 <= k < |m|
      ensures UpperChar(UpperChar(m[k])) == UpperChar(m[k])
    {
      UpperCharSpace(m[k]);
    }
  }

  /** Blanks around the requested code and the case of its letters do not
      change the code, hence not the divisor either. */
  lemma CodeIgnoresBlanksAndCase(pre: string, s: string, post: string, stored: Field)
    requires AllSpace(pre) && AllSpace(post)
    requires Truthy(Text(s))
    ensures SelectCode(Text(pre + s + post), stored) == SelectCode(Text(Upper(s)), stored)
  {
    var u := Upper(s);
    assert |u| == |s|;
    TrimPadded(pre, s, post);
    assert SelectCode(Text(pre + s + post), stored) == Normal(s);
    TrimUpper(s);
    assert Normal(u) == Upper(Upper(Trim(s)));
    NormalIdempotent(s);
    TrimIdempotent(s);
    TrimUpper(Trim(s));
    assert Normal(Normal(s)) == Upper(Upper(Trim(s)));
    assert SelectCode(Text(u), stored) == Normal(u);
  }

  /** A requested code made only of blanks is truthy, so it does not fall back
      to the stored code or to INR: the code is empty and the divisor 1. */
  lemma BlankCodeNotDefaulted(s: string, stored: Field)
    requires s != "" && AllSpace(s)
    ensures SelectCode(Text(s), stored) == ""
    ensures Divisor(SelectCode(Text(s), stored)) == 1
  {
    TrimEmpty(s);
  }

  // ---------------------------------------------------------------------------
  // _sf of the proforma handlers

  /** The characters the cleaning keeps: ASCII digits, `.` and `-`. */
  predicate Kept(c: char) {
    IsDigit(c) || c == '.' || c == '-'
  }

  /** The kept characters of `s`, in order; every other character is dropped. */
  function Clean(s: string): (r: string)
    ensures |r| <= |s|
    ensures forall k :: 0 <= k < |r| ==> Kept(r[k])
  {
    if |s| == 0 then "" else (if Kept(s[0]) then [s[0]] else []) + Clean(s[1..])
  }

  /** Cleaning works character by character. */
  lemma {:induction false} CleanAppend(a: string, b: string)
    ensures Clean(a + b) == Clean(a) + Clean(b)
  {
    if |a| == 0 {
      assert a + b == b;
    } else {
      assert (a + b)[1..] == a[1..] + b;
      CleanAppend(a[1..], b);
    }
  }

  /** A text of kept characters only is left as it is; in particular every
      `-` is kept, wherever it stands. */
  lemma {:induction false} CleanFixed(s: string)
    requires forall k :: 0 <= k < |s| ==> Kept(s[k])
    ensures Clean(s) == s
  {
    if |s| > 0 {
      CleanFixed(s[1..]);
    }
  }

  lemma CleanIdempotent(s: string)
    ensures Clean(Clean(s)) == Clean(s)
  {
    CleanFixed(Clean(s));
  }

  /** Each kept character occurs in the result as often as in the input, and
      no other character occurs at all. */
  lemma {:induction false} CleanCounts(s: string, c: char)
    ensures multiset(Clean(s))[c] == if Kept(c) then multiset(s)[c] else 0
  {
    if |s| > 0 {
      CleanCounts(s[1..], c);
      assert s == [s[0]] + s[1..];
    }
  }

  /** Text without kept characters in front of an amount is dropped, so a
      prefix such as `INR ` does not matter, while the dot of `Rs.` stays. */
  lemma DroppedPrefix(p: string, s: string)
    requires forall k :: 0 <= k < |p| ==> !Kept(p[k])
    ensures Clean(p + s) == Clean(s)
  {
    CleanAppend(p, s);
    CleanNone(p);
  }

  lemma {:induction false} CleanNone(p: string)
    requires forall k :: 0 <= k < |p| ==> !Kept(p[k])
    ensures Clean(p) == ""
  {
    if |p| > 0 {
      CleanNone(p[1..]);
    }
  }

  /** `_sf` of the proforma handlers for a posted value: None is 0.0, and a
      text is parsed after cleaning, an empty cleaning giving 0.0. */
  function ProformaSf(f: Field): (a: Amount)
    ensures f.Text? && Clean(f.s) != "" <==> a.FloatOf?
    ensures a.FloatOf? ==> a.text == Clean(f.s)
  {
    match f
    case Absent => Zero
    case Null => Zero
    case Text(s) => if Clean(s) == "" then Zero else FloatOf(Clean(s))
  }

  /** Cleaning first changes nothing, and on text made of kept characters
      only the proforma helper agrees with the packaging-list one. */
  lemma ProformaSfOfClean(s: string)
    ensures ProformaSf(Text(Clean(s))) == ProformaSf(Text(s))
    ensures (forall k :: 0 <= k < |s| ==> Kept(s[k])) ==> ProformaSf(Text(s)) == Sf(Text(s))
  {
    CleanIdempotent(s);
    if forall k :: 0 <= k < |s| ==> Kept(s[k]) {
      CleanFixed(s);
    }
  }
}

=== FILE: fields.dfy ===
/**
  The scalar JSON values the handlers read out of request bodies and stored
  records, and the few Python idioms they apply to them: `d.get(k)`,
  `d.get(k, default)`, `a or b`, `str(v or '')` and `str(v)`.

  A scalar is modelled as absent (the key is missing), `null`, or a string.
  Numbers and booleans sent as JSON values are not modelled; a number typed
  into a form arrives as its string text.
 */
module Fields {

  datatype Field = Absent | Null | Text(s: string)

  /** A JSON object restricted to its scalar members. */
  type Dict = map<string, Field>

  /** `d.get(k)`: a missing key reads as absent, which Python shows as None. */
  function Get(d: Dict, k: string): Field {
    if k in d then d[k] else Absent
  }

  /** `d.get(k, default)`: only a missing key falls back; an explicit null does not. */
  function GetOr(d: Dict, k: string, default: Field): (f: Field)
    ensures k !in d ==> f == default
    ensures k in d ==> f == d[k]
  {
    if k in d then d[k] else default
  }

  /** Python truthiness: None and the empty string are false. */
  predicate Truthy(f: Field) {
    f.Text? && f.s != ""
  }

  /** `a or b`. */
  function Or(a: Field, b: Field): (r: Field)
    ensures Truthy(a) ==> r == a
    ensures !Truthy(a) ==> r == b
  {
    if Truthy(a) then a else b
  }

  /** The text of a truthy value, and the empty text for a missing, null or
      empty one (`str(v or '')`). */
  function TextOf(f: Field): (r: string)
    ensures r != "" <==> Truthy(f)
    ensures Truthy(f) ==> r == f.s
  {
    if Truthy(f) then f.s else ""
  }

  /** `str(v)` where a missing key was read with default `''`; `str(None)` is "None". */
  function StrOf(f: Field): string {
    match f
    case Absent => ""
    case Null => "None"
    case Text(s) => s
  }

  /** A number produced by one of the handlers' `_sf` helpers, kept symbolic:
      either the literal 0.0 or the float parsed from a piece of text (which is
      itself 0.0 when the text does not parse). Float parsing is not modelled. */
  datatype Amount = Zero | FloatOf(text: string)

  /** `_sf` of the packaging-list handler: `float(v) if v else 0.0`. */
  function Sf(f: Field): (a: Amount)
    ensures a == Zero <==> !Truthy(f)
    ensures a.FloatOf? ==> a.text == f.s
  {
    if Truthy(f) then FloatOf(f.s) else Zero
  }
}

=== FILE: modulea.dfy ===
/**
  Module A of a packaging list: what is inside each box, and `box_lookup`, the
  map from box number to the record describing that box.

  A1 is a list of rows (flat rows, or material sections holding box rows), A2
  one record listing several materials, A3 one record for one or more boxes.
 */
module ModuleA {
  import opened Wrappers
  import opened Text
  import opened Fields
  import opened Tokens

  /** The quantity, dimension and weight fields of a box record. */
  datatype Measures = Measures(qty: Field, l: Field, w: Field, h: Field, netWt: Field, grossWt: Field)

  function MeasuresOf(d: Dict): Measures {
    Measures(Get(d, "qty"), Get(d, "l"), Get(d, "w"), Get(d, "h"), Get(d, "netWt"), Get(d, "grossWt"))
  }

  /** One row of `_normalize_a1_rows`. */
  datatype Row = Row(boxNumbers: Field, description: string, measures: Measures)

  /** What `box_lookup` keeps for a box: the record's description (absent when
      the record has none) and its measures. */
  datatype Details = Details(description: Field, measures: Measures)

  /** One element of an A1 list. */
  datatype A1Entry =
    | NotAnObject                                      // skipped
    | Section(material: Dict, boxes: seq<Option<Dict>>) // a `material` object and a `boxes` list
    | Flat(row: Dict)                                  // any other object

  /** Module A as posted: its type tag with its data.

      The `materials` of an A2 record are its elements, `None` for one that is
      not an object. A missing `materials` key, `""` and `{}` give no elements;
      a non-empty string or object is iterated as characters or keys, none of
      which is an object. A1 data that is not a list gives no rows, as `A1([])`
      does. */
  datatype Input =
    | A1(entries: seq<A1Entry>)
    | A2(record: Dict, materials: seq<Option<Dict>>, totals: Measures)
    | A3(record: Dict)
    | NonObjectData                     // tag A2 or A3, data not an object
    | UniterableMaterials(record: Dict) // tag A2, `materials` null, a number or a boolean
    | Unrecognised                      // any other tag

  // ---------------------------------------------------------------------------
  // _normalize_a1_rows

  /** The row a box object of a section becomes: its box field is `boxNumber`,
      failing that `boxNumbers`, and the empty string when neither is set. */
  function BoxRow(desc: string, box: Dict): (r: Row)
    ensures r.boxNumbers.Text?
    ensures r.boxNumbers == Text("") <==> !Truthy(Get(box, "boxNumber")) && !Truthy(Get(box, "boxNumbers"))
    ensures Truthy(Get(box, "boxNumber")) ==> r.boxNumbers == Get(box, "boxNumber")
    ensures r.description == desc
  {
    Row(Or(Get(box, "boxNumber"), Or(Get(box, "boxNumbers"), Text(""))), desc, MeasuresOf(box))
  }

  /** The row a flat entry becomes: its box field is `boxNumbers`, failing that
      `boxNumber`, and the empty string when neither is set. */
  function FlatRow(d: Dict): (r: Row)
    ensures r.boxNumbers.Text?
    ensures r.boxNumbers == Text("") <==> !Truthy(Get(d, "boxNumbers")) && !Truthy(Get(d, "boxNumber"))
    ensures Truthy(Get(d, "boxNumbers")) ==> r.boxNumbers == Get(d, "boxNumbers")
  {
    Row(Or(Get(d, "boxNumbers"), Or(Get(d, "boxNumber"), Text(""))), TextOf(Get(d, "description")), MeasuresOf(d))
  }

  function SectionRows(desc: string, boxes: seq<Option<Dict>>): (r: seq<Row>)
    ensures forall k :: 0 <= k < |r| ==> r[k].boxNumbers.Text?
  {
    if |boxes| == 0 then []
    else (if boxes[0].Some? then [BoxRow(desc, boxes[0].value)] else []) + SectionRows(desc, boxes[1..])
  }

  function EntryRows(e: A1Entry): (r: seq<Row>)
    ensures forall k :: 0 <= k < |r| ==> r[k].boxNumbers.Text?
  {
    match e
    case NotAnObject => []
    case Section(material, boxes) => SectionRows(TextOf(Get(material, "description")), boxes)
    case Flat(d) => [FlatRow(d)]
  }

  /** `_normalize_a1_rows`: every row's box field is a string. When it is the
      empty one is stated row by row in `BoxRow` and `FlatRow`. */
  function NormalizeA1(entries: seq<A1Entry>): (r: seq<Row>)
    ensures forall k :: 0 <= k < |r| ==> r[k].boxNumbers.Text?
  {
    if |entries| == 0 then [] else EntryRows(entries[0]) + NormalizeA1(entries[1..])
  }

  /** The object boxes of a section. */
  function Objects(boxes: seq<Option<Dict>>): (r: seq<Dict>)
    ensures |r| <= |boxes|
  {
    if |boxes| == 0 then []
    else (if boxes[0].Some? then [boxes[0].value] else []) + Objects(boxes[1..])
  }

  /** A section yields one row per box object, in order, each carrying the
      material's description; the boxes' own descriptions are ignored. */
  lemma {:induction false} SectionRowsSpec(desc: string, boxes: seq<Option<Dict>>)
    ensures var r := SectionRows(desc, boxes);
            var objs := Objects(boxes);
            |r| == |objs| &&
            forall k :: 0 <= k < |r| ==>
              r[k].description == desc && r[k] == BoxRow(desc, objs[k])
  {
    if |boxes| > 0 {
      SectionRowsSpec(desc, boxes[1..]);
    }
  }

  /** Normalisation handles each entry on its own. */
  lemma {:induction false} NormalizeA1Append(a: seq<A1Entry>, b: seq<A1Entry>)
    ensures NormalizeA1(a + b) == NormalizeA1(a) + NormalizeA1(b)
  {
    if |a| == 0 {
      assert a + b == b;
    } else {
      assert (a + b)[1..] == a[1..] + b;
      NormalizeA1Append(a[1..], b);
    }
  }

  // ---------------------------------------------------------------------------
  // _aggregate_a2_materials: the description

  /** `(m.get('description') or '').strip()` for an object material, and the
      empty text for any other. */
  function DescriptionOf(material: Option<Dict>): string {
    if material.Some? then Trim(TextOf(Get(material.value, "description"))) else ""
  }

  /** The stripped, non-blank material descriptions, in order. */
  function MaterialDescriptions(materials: seq<Option<Dict>>): (r: seq<string>)
    ensures forall k :: 0 <= k < |r| ==> r[k] != "" && Trim(r[k]) == r[k]
    ensures |r| <= |materials|
  {
    if |materials| == 0 then []
    else
      var d := DescriptionOf(materials[0]);
      TrimIdempotent(if materials[0].Some? then TextOf(Get(materials[0].value, "description")) else "");
      (if d != "" then [d] else []) + MaterialDescriptions(materials[1..])
  }

  /** Some object material among `materials` has the description `d`. */
  predicate Described(materials: seq<Option<Dict>>, d: string) {
    exists k :: 0 <= k < |materials| && materials[k].Some? && d == DescriptionOf(materials[k])
  }

  /** A text is kept exactly when it is not blank and is the stripped
      description of some object material. */
  lemma {:induction false} MaterialDescriptionsMembers(materials: seq<Option<Dict>>, d: string)
    ensures d in MaterialDescriptions(materials) <==> d != "" && Described(materials, d)
    decreases |materials|
  {
    if |materials| > 0 {
      var rest := materials[1..];
      MaterialDescriptionsMembers(rest, d);
      if Described(rest, d) {
        var k :| 0 <= k < |rest| && rest[k].Some? && d == DescriptionOf(rest[k]);
        assert materials[k + 1] == rest[k];
      }
      if Described(materials, d) && d != DescriptionOf(materials[0]) {
        var k :| 0 <= k < |materials| && materials[k].Some? && d == DescriptionOf(materials[k]);
        assert k > 0 && rest[k - 1] == materials[k];
      }
      if d != "" && d == DescriptionOf(materials[0]) {
        assert materials[0].Some?;
      }
    }
  }

  /** `' | '.join(ws)`. */
  function JoinBar(ws: seq<string>): string {
    if |ws| == 0 then ""
    else if |ws| == 1 then ws[0]
    else ws[0] + " | " + JoinBar(ws[1..])
  }

  function A2Description(materials: seq<Option<Dict>>): string {
    var ds := MaterialDescriptions(materials);
    if |ds| == 0 then "N/A" else JoinBar(ds)
  }

  lemma {:induction false} JoinBarLength(ws: seq<string>)
    requires |ws| >= 2
    requires forall k :: 0 <= k < |ws| ==> ws[k] != ""
    ensures |JoinBar(ws)| >= 5
  {
    if |ws| > 2 {
      JoinBarLength(ws[1..]);
    }
  }

  /** The A2 description reads "N/A" exactly when no material has a
      description, or the only one is itself the text "N/A". */
  lemma A2DescriptionNA(materials: seq<Option<Dict>>)
    ensures var ds := MaterialDescriptions(materials);
            A2Description(materials) == "N/A" <==> ds == [] || ds == ["N/A"]
  {
    var ds := MaterialDescriptions(materials);
    if |ds| >= 2 {
      JoinBarLength(ds);
    }
  }

  // ---------------------------------------------------------------------------
  // box_lookup

  /** `for b in bs: lookup[b] = v`. */
  function AssignAll(m: map<string, Details>, bs: seq<string>, v: Details): (r: map<string, Details>)
    ensures r.Keys == m.Keys + set b | b in bs
    ensures forall b :: b in r ==> r[b] == if b in bs then v else m[b]
    decreases |bs|
  {
    if |bs| == 0 then m else AssignAll(m[bs[0] := v], bs[1..], v)
  }

  function RowTokens(r: Row): seq<string> {
    ParseTokens(TextOf(r.boxNumbers))
  }

  function RowDetails(r: Row): Details {
    Details(Text(r.description), r.measures)
  }

  /** The A1 loop: rows in order, each row's box tokens in order. */
  function RowsLookup(rows: seq<Row>): map<string, Details> {
    if |rows| == 0 then map[]
    else
      var last := rows[|rows| - 1];
      AssignAll(RowsLookup(rows[..|rows| - 1]), RowTokens(last), RowDetails(last))
  }

  // ---------------------------------------------------------------------------
  // The weight loop

  /** The A2 weight loop over the materials: `.get` on the first element that
      is not an object raises. The float sums themselves are not modelled. */
  function MaterialsLoop(materials: seq<Option<Dict>>): (r: Option<Failure>)
    ensures r.None? <==> forall k :: 0 <= k < |materials| ==> materials[k].Some?
    ensures r.Some? ==> r.value == AttributeError
  {
    if |materials| == 0 then None
    else if materials[0].None? then Some(AttributeError)
    else MaterialsLoop(materials[1..])
  }

  /** The weight totals loop of `create_packaging_list`, which runs before the
      lookup is built: the exception it raises, if any. A1 rows are all objects
      and A3 reads two keys of an object, so only A2 and non-object data fail. */
  function WeightLoop(a: Input): (r: Option<Failure>)
    ensures r.None? <==>
              !a.NonObjectData? && !a.UniterableMaterials? &&
              (a.A2? ==> forall k :: 0 <= k < |a.materials| ==> a.materials[k].Some?)
    ensures a.NonObjectData? ==> r == Some(AttributeError)
    ensures a.UniterableMaterials? ==> r == Some(TypeError)
    ensures a.A2? && r.Some? ==> r == Some(AttributeError)
  {
    match a
    case A2(_, materials, _) => MaterialsLoop(materials)
    case NonObjectData => Some(AttributeError)
    case UniterableMaterials(_) => Some(TypeError)
    case _ => None
  }

  /** When the weight loop lets an A2 record through, the aggregation's own
      `isinstance` guard skips nothing: every material is an object. */
  lemma {:induction false} ObjectsAll(materials: seq<Option<Dict>>)
    ensures |Objects(materials)| == |materials| <==> MaterialsLoop(materials).None?
  {
    if |materials| > 0 {
      ObjectsAll(materials[1..]);
    }
  }

  /** `box_lookup`. For A2 and A3 every box token of the one record maps to
      that record's details (A2: the joined description and the aggregated
      measures); for A1 see `LastRowWins`. */
  function BoxLookup(a: Input): (m: map<string, Details>)
    ensures (a.A2? || a.A3?) ==> forall b :: b in m <==> b in BoxTokens(a.record)
    ensures a.A3? ==> forall b :: b in m ==> m[b] == Details(Get(a.record, "description"), MeasuresOf(a.record))
    ensures a.A2? ==> forall b :: b in m ==> m[b] == Details(Text(A2Description(a.materials)), a.totals)
    ensures a.Unrecognised? || a.NonObjectData? ==> m == map[]
  {
    match a
    case A1(entries) => RowsLookup(NormalizeA1(entries))
    case A2(d, materials, totals) =>
      AssignAll(map[], BoxTokens(d), Details(Text(A2Description(materials)), totals))
    case A3(d) => AssignAll(map[], BoxTokens(d), Details(Get(d, "description"), MeasuresOf(d)))
    case NonObjectData => map[]
    // Never consulted: the weight loop has already raised (see `WeightLoop`).
    case UniterableMaterials(_) => map[]
    case Unrecognised => map[]
  }

  /** `_parse_tokens(a_data.get('boxNumber'))`. */
  function BoxTokens(d: Dict): seq<string> {
    ParseTokens(TextOf(Get(d, "boxNumber")))
  }

  /** The last element satisfying `p`, if any. */
  function LastWhere<T>(xs: seq<T>, p: T -> bool): (r: Option<nat>)
    ensures r.Some? ==> r.value < |xs| && p(xs[r.value])
    ensures r.Some? ==> forall k :: r.value < k < |xs| ==> !p(xs[k])
    ensures r.None? ==> forall k :: 0 <= k < |xs| ==> !p(xs[k])
  {
    if |xs| == 0 then None
    else if p(xs[|xs| - 1]) then Some(|xs| - 1)
    else
      var r := LastWhere(xs[..|xs| - 1], p);
      assert forall k :: 0 <= k < |xs| - 1 ==> xs[..|xs| - 1][k] == xs[k];
      r
  }

  /** The last row that names box `b`, if any. */
  function LastRowWith(rows: seq<Row>, b: string): (r: Option<nat>)
    ensures r.Some? ==> r.value < |rows| && b in RowTokens(rows[r.value])
    ensures r.Some? ==> forall k :: r.value < k < |rows| ==> b !in RowTokens(rows[k])
    ensures r.None? ==> forall k :: 0 <= k < |rows| ==> b !in RowTokens(rows[k])
  {
    LastWhere(rows, row => b in RowTokens(row))
  }

  /** For A1 a box maps to the record of the LAST row naming it: later rows
      overwrite earlier ones, and boxes no row names are not in the lookup. */
  lemma {:induction false} LastRowWins(rows: seq<Row>)
    ensures var m := RowsLookup(rows);
            forall b ::
              (b in m <==> LastRowWith(rows, b).Some?) &&
              (b in m ==> m[b] == RowDetails(rows[LastRowWith(rows, b).value]))
  {
    if |rows| > 0 {
      var init := rows[..|rows| - 1];
      LastRowWins(init);
      forall b
        ensures LastRowWith(rows, b).Some? && b !in RowTokens(rows[|rows| - 1]) ==>
                LastRowWith(rows, b) == LastRowWith(init, b) && rows[LastRowWith(rows, b).value] == init[LastRowWith(init, b).value]
      {
      }
    }
  }
}

=== FILE: moduleb.dfy ===
/**
  Module B of a packaging list: which items went into which boxes.

  The three posted shapes are normalised into `item_to_boxes`, a map from item
  number to the set of its box numbers, and that map is inverted into
  `box_to_items`.
 */
module ModuleB {
  import opened Wrappers
  import opened Fields
  import opened Tokens

  /** A map from a number to a set of numbers. */
  type Index = map<string, set<string>>

  predicate Has(m: Index, k: string, v: string) {
    k in m && v in m[k]
  }

  /** `setdefault(...).add(...)` never leaves a key with an empty set. */
  predicate NoEmptySets(m: Index) {
    forall k :: k in m ==> m[k] != {}
  }

  /** `m.setdefault(k, set()).add(v)`. */
  function Add(m: Index, k: string, v: string): (r: Index)
    ensures forall a, b :: Has(r, a, b) <==> Has(m, a, b) || (a == k && b == v)
    ensures r.Keys == m.Keys + {k}
    ensures NoEmptySets(m) ==> NoEmptySets(r)
  {
    m[k := (if k in m then m[k] else {}) + {v}]
  }

  /** `Add` for every pair, in order. */
  function AddAll(m: Index, ps: seq<(string, string)>): (r: Index)
    ensures forall a, b :: Has(r, a, b) <==> Has(m, a, b) || (a, b) in ps
    ensures forall a :: a in r <==> a in m || exists b :: (a, b) in ps
    ensures NoEmptySets(m) ==> NoEmptySets(r)
    decreases |ps|
  {
    if |ps| == 0 then m
    else
      var r := AddAll(Add(m, ps[0].0, ps[0].1), ps[1..]);
      assert forall a, b :: (a, b) in ps <==> (a, b) == ps[0] || (a, b) in ps[1..];
      r
  }

  // ---------------------------------------------------------------------------
  // The posted shapes

  /** Module B as posted: its type tag together with data of the matching shape.
      A row that is not a JSON object is `None` and is skipped. */
  datatype Input =
    | B1(rows: seq<Option<Dict>>)  // per box: `boxNumber` and its `itemNumbers`
    | B2(rows: seq<Option<Dict>>)  // per item: `itemNumber` and its `boxNumbers`
    | B3(record: Dict)             // one record: `itemNumber` and `boxNumber`, all linked
    | Unrecognised                 // another tag, or data of the wrong JSON type

  /** `_parse_tokens(d.get(k))`. */
  function TokensAt(d: Dict, k: string): seq<string> {
    ParseTokens(TextOf(Get(d, k)))
  }

  /** `for x in xs: for y in ys: (x, y)`. */
  function Product(xs: seq<string>, ys: seq<string>): (r: seq<(string, string)>)
    ensures forall a, b :: (a, b) in r <==> a in xs && b in ys
  {
    if |xs| == 0 then []
    else
      var here := seq(|ys|, k requires 0 <= k < |ys| => (xs[0], ys[k]));
      assert forall a, b :: (a, b) in here <==> a == xs[0] && b in ys by {
        forall a, b | a == xs[0] && b in ys
          ensures (a, b) in here
        {
          var k :| 0 <= k < |ys| && ys[k] == b;
          assert here[k] == (a, b);
        }
      }
      here + Product(xs[1..], ys)
  }

  /** The same pairs with their sides exchanged. */
  function Flip(ps: seq<(string, string)>): (r: seq<(string, string)>)
    ensures forall a, b :: (a, b) in r <==> (b, a) in ps
  {
    if |ps| == 0 then [] else [(ps[0].1, ps[0].0)] + Flip(ps[1..])
  }

  /** The (item, box) pairs one row contributes, in the order `create_packaging_list` adds them. */
  function RowPairs(b: Input, row: Option<Dict>): seq<(string, string)>
    requires b.B1? || b.B2?
  {
    match row
    case None => []
    case Some(d) =>
      if b.B1? then Flip(Product(TokensAt(d, "boxNumber"), TokensAt(d, "itemNumbers")))
      else Product(TokensAt(d, "itemNumber"), TokensAt(d, "boxNumbers"))
  }

  function RowsPairs(b: Input, rows: seq<Option<Dict>>): seq<(string, string)>
    requires b.B1? || b.B2?
  {
    if |rows| == 0 then [] else RowPairs(b, rows[0]) + RowsPairs(b, rows[1..])
  }

  function Pairs(b: Input): seq<(string, string)> {
    match b
    case B1(rows) => RowsPairs(b, rows)
    case B2(rows) => RowsPairs(b, rows)
    case B3(d) => Product(TokensAt(d, "itemNumber"), TokensAt(d, "boxNumber"))
    case Unrecognised => []
  }

  /** Item `item` and box `box` are named together by some row of the input. */
  predicate Linked(b: Input, item: string, box: string) {
    match b
    case B1(rows) =>
      exists k :: 0 <= k < |rows| && rows[k].Some? &&
        box in TokensAt(rows[k].value, "boxNumber") && item in TokensAt(rows[k].value, "itemNumbers")
    case B2(rows) =>
      exists k :: 0 <= k < |rows| && rows[k].Some? &&
        item in TokensAt(rows[k].value, "itemNumber") && box in TokensAt(rows[k].value, "boxNumbers")
    case B3(d) =>
      item in TokensAt(d, "itemNumber") && box in TokensAt(d, "boxNumber")
    case Unrecognised => false
  }

  lemma {:induction false} RowsPairsLinked(b: Input, rows: seq<Option<Dict>>, item: string, box: string)
    requires b.B1? || b.B2?
    ensures (item, box) in RowsPairs(b, rows) <==>
            exists k :: 0 <= k < |rows| && (item, box) in RowPairs(b, rows[k])
  {
    if |rows| > 0 {
      RowsPairsLinked(b, rows[1..], item, box);
      if (item, box) in RowPairs(b, rows[0]) {
        assert 0 < |rows| && (item, box) in RowPairs(b, rows[0]);
      }
      if exists k :: 0 <= k < |rows| && (item, box) in RowPairs(b, rows[k]) {
        var k :| 0 <= k < |rows| && (item, box) in RowPairs(b, rows[k]);
        if k > 0 {
          assert rows[k] == rows[1..][k - 1];
        }
      }
    }
  }

  lemma PairsLinked(b: Input, item: string, box: string)
    ensures (item, box) in Pairs(b) <==> Linked(b, item, box)
  {
    if b.B1? || b.B2? {
      RowsPairsLinked(b, b.rows, item, box);
    }
  }

  /** `item_to_boxes`: box x is listed under item i exactly when some row of the
      input names both, and no item is listed with an empty set. */
  function ItemToBoxes(b: Input): (m: Index)
    ensures forall i, x :: Has(m, i, x) <==> Linked(b, i, x)
    ensures NoEmptySets(m)
  {
    var m := AddAll(map[], Pairs(b));
    forall i, x
      ensures Has(m, i, x) <==> Linked(b, i, x)
    {
      PairsLinked(b, i, x);
    }
    m
  }

  // ---------------------------------------------------------------------------
  // The key order of `item_to_boxes`

  /** Item `x` occurs in `ps` before every occurrence of item `y`. */
  predicate FirstBefore(ps: seq<(string, string)>, x: string, y: string) {
    forall q :: 0 <= q < |ps| && ps[q].0 == y ==> exists p :: 0 <= p < q && ps[p].0 == x
  }

  /** The items of `ps`, each once, at its first occurrence. */
  function FirstAppearance(ps: seq<(string, string)>): seq<string>
    decreases |ps|
  {
    if |ps| == 0 then []
    else
      var r := FirstAppearance(ps[..|ps| - 1]);
      if ps[|ps| - 1].0 in r then r else r + [ps[|ps| - 1].0]
  }

  /** Item `a` is the item of some pair of `ps`. */
  predicate ItemIn(ps: seq<(string, string)>, a: string) {
    exists p :: 0 <= p < |ps| && ps[p].0 == a
  }

  lemma {:induction false} FirstAppearanceSpec(ps: seq<(string, string)>)
    ensures forall a :: a in FirstAppearance(ps) <==> ItemIn(ps, a)
    ensures forall i, j :: 0 <= i < j < |FirstAppearance(ps)| ==>
              FirstAppearance(ps)[i] != FirstAppearance(ps)[j]
    ensures forall i, j :: 0 <= i < j < |FirstAppearance(ps)| ==>
              FirstBefore(ps, FirstAppearance(ps)[i], FirstAppearance(ps)[j])
    decreases |ps|
  {
    if |ps| > 0 {
      var n := |ps| - 1;
      var init := ps[..n];
      var x := ps[n].0;
      var r0 := FirstAppearance(init);
      var r := FirstAppearance(ps);
      assert r == if x in r0 then r0 else r0 + [x];
      FirstAppearanceSpec(init);
      forall a
        ensures a in r <==> ItemIn(ps, a)
      {
        if ItemIn(ps, a) {
          var p :| 0 <= p < |ps| && ps[p].0 == a;
          if p < n {
            assert init[p].0 == a;
            assert ItemIn(init, a);
          }
        }
        if a in r0 {
          assert ItemIn(init, a);
          var p :| 0 <= p < n && init[p].0 == a;
          assert ps[p].0 == a;
        }
      }
      forall i, j | 0 <= i < j < |r|
        ensures FirstBefore(ps, r[i], r[j])
      {
        assert r[i] == r0[i];
        assert ItemIn(init, r0[i]);
        var p :| 0 <= p < n && init[p].0 == r0[i];
        forall q | 0 <= q < |ps| && ps[q].0 == r[j]
          ensures exists p :: 0 <= p < q && ps[p].0 == r[i]
        {
          if q < n {
            assert init[q].0 == r0[j];
            assert FirstBefore(init, r0[i], r0[j]);
            var p' :| 0 <= p' < q && init[p'].0 == r0[i];
            assert ps[p'].0 == r[i];
          } else {
            assert ps[p].0 == r[i];
          }
        }
      }
    }
  }

  /** The keys `AddAll` creates from nothing are the items of the pairs. */
  lemma AddAllKeys(ps: seq<(string, string)>)
    ensures forall a :: a in AddAll(map[], ps) <==> ItemIn(ps, a)
  {
  }

  /** The keys of `item_to_boxes` in the order Python 3 iterates them: the order
      in which `setdefault` first inserts each item, that is the order of the
      items' first occurrences in the (item, box) pairs. */
  function ItemOrder(b: Input): (r: seq<string>)
    ensures forall a :: a in r <==> a in ItemToBoxes(b)
    ensures forall i, j :: 0 <= i < j < |r| ==> r[i] != r[j]
    ensures forall i, j :: 0 <= i < j < |r| ==> FirstBefore(Pairs(b), r[i], r[j])
  {
    FirstAppearanceSpec(Pairs(b));
    AddAllKeys(Pairs(b));
    assert ItemToBoxes(b) == AddAll(map[], Pairs(b));
    FirstAppearance(Pairs(b))
  }

  /** For B3 the index is the full cross product of the parsed item and box
      tokens: every item is listed, with every box, as long as there is a box. */
  lemma B3CrossProduct(d: Dict)
    ensures var m := ItemToBoxes(B3(d));
            var items, boxes := TokensAt(d, "itemNumber"), TokensAt(d, "boxNumber");
            (forall i :: i in m <==> i in items && |boxes| > 0) &&
            (forall i :: i in m ==> m[i] == set x | x in boxes)
  {
    var m := ItemToBoxes(B3(d));
    var items, boxes := TokensAt(d, "itemNumber"), TokensAt(d, "boxNumber");
    forall i
      ensures i in m <==> i in items && |boxes| > 0
    {
      if i in m {
        var x :| x in m[i];
        assert Has(m, i, x);
      }
      if i in items && |boxes| > 0 {
        assert Has(m, i, boxes[0]);
      }
    }
    forall i | i in m
      ensures m[i] == set x | x in boxes
    {
      forall x
        ensures x in m[i] <==> x in boxes
      {
        assert x in m[i] <==> Has(m, i, x);
      }
    }
  }

  // ---------------------------------------------------------------------------
  // box_to_items

  /** `r` lists b under a exactly when `m` lists a under b. */
  ghost predicate IsInverse(m: Index, r: Index) {
    forall a, b :: Has(m, a, b) <==> Has(r, b, a)
  }

  /** Every number listed anywhere in `m`. */
  function Listed(m: Index): set<string> {
    set a, b | a in m && b in m[a] :: b
  }

  /** The inverse, defined in one step. */
  function Inverse(m: Index): (r: Index)
    ensures IsInverse(m, r) && NoEmptySets(r)
  {
    var r := map b | b in Listed(m) :: set a | a in m && b in m[a];
    assert forall b :: b in r ==> exists a :: a in r[b] by {
      forall b | b in r
        ensures exists a :: a in r[b]
      {
        var a :| a in m && b in m[a];
        assert a in r[b];
      }
    }
    r
  }

  /** Two inverses without empty sets are the same map. */
  lemma {:induction false} InverseUnique(m: Index, r1: Index, r2: Index)
    requires IsInverse(m, r1) && NoEmptySets(r1)
    requires IsInverse(m, r2) && NoEmptySets(r2)
    ensures r1 == r2
  {
    forall b | b in r1
      ensures b in r2 && r1[b] == r2[b]
    {
      var a :| a in r1[b];
      assert Has(r1, b, a);
      forall a' ensures a' in r1[b] <==> a' in r2[b] {
        assert Has(r1, b, a') <==> Has(r2, b, a');
      }
    }
    forall b | b in r2
      ensures b in r1
    {
      var a :| a in r2[b];
      assert Has(r2, b, a);
    }
  }

  /** Inverting twice gives back an index without empty sets. */
  lemma InverseInvolution(m: Index)
    requires NoEmptySets(m)
    ensures Inverse(Inverse(m)) == m
  {
    var r := Inverse(m);
    assert IsInverse(r, m);
    InverseUnique(r, Inverse(r), m);
  }

  /** `box_to_items`, built by the handler's two nested loops over `item_to_boxes`. */
  method InvertIndex(m: Index) returns (r: Index)
    ensures IsInverse(m, r) && NoEmptySets(r)
    ensures r == Inverse(m)
  {
    r := map[];
    var todo := m.Keys;
    while todo != {}
      invariant todo <= m.Keys
      invariant forall b, a :: Has(r, b, a) <==> a in m && a !in todo && b in m[a]
      invariant NoEmptySets(r)
      decreases |todo|
    {
      var a :| a in todo;
      var boxes := m[a];
      while boxes != {}
        invariant boxes <= m[a]
        invariant forall b, a' :: Has(r, b, a') <==>
                    (a' in m && a' !in todo && b in m[a']) || (a' == a && b in m[a] && b !in boxes)
        invariant NoEmptySets(r)
        decreases |boxes|
      {
        var b :| b in boxes;
        r := Add(r, b, a);
        boxes := boxes - {b};
      }
      todo := todo - {a};
    }
    InverseUnique(m, r, Inverse(m));
  }
}

=== FILE: numwords.dfy ===
/**
  `number_to_words`: an amount in rupees written out in words with the Indian
  grouping (Crore = 10^7, Lakh = 10^5, Thousand), as printed on invoices.

  Amounts are whole numbers here. `None` stands for the IndexError Python raises
  when the crore part reaches 1000, that is from 10^10 on.
 */
module NumberWords {
  import opened Wrappers
  import opened Text

  const Ones: seq<string> := ["", "One", "Two", "Three", "Four", "Five", "Six", "Seven", "Eight", "Nine"]
  const Teens: seq<string> := ["Ten", "Eleven", "Twelve", "Thirteen", "Fourteen", "Fifteen", "Sixteen", "Seventeen", "Eighteen", "Nineteen"]
  const Tens: seq<string> := ["", "", "Twenty", "Thirty", "Forty", "Fifty", "Sixty", "Seventy", "Eighty", "Ninety"]

  const Crore := 10000000
  const Lakh := 100000

  // ---------------------------------------------------------------------------
  // The functions as written

  /** `convert_less_than_thousand` below a hundred. */
  function BelowHundred(n: nat): string
    requires n < 100
  {
    if n == 0 then ""
    else if n < 10 then Ones[n]
    else if n < 20 then Teens[n - 10]
    else Tens[n / 10] + (if n % 10 != 0 then " " + Ones[n % 10] else "")
  }

  /** `convert_less_than_thousand`. Its recursive call is on `n % 100`, which is
      below a hundred, so it is written here with `BelowHundred`; from 1000 on
      `ones[n // 100]` is out of range. */
  function LessThanThousand(n: nat): (r: Option<string>)
    ensures r.Some? <==> n < 1000
  {
    if n < 100 then Some(BelowHundred(n))
    else if n / 100 >= |Ones| then None
    else Some(Ones[n / 100] + " Hundred" + (if n % 100 != 0 then " " + BelowHundred(n % 100) else ""))
  }

  /** `convert_less_than_thousand(k) + scale`, or the error it raises. */
  function Part(k: nat, scale: string): Option<string> {
    match LessThanThousand(k)
    case None => None
    case Some(w) => Some(w + scale)
  }

  /** `convert_integer`: the Crore, Lakh and Thousand parts and the rest, each
      only when non-zero, concatenated and stripped. It fails exactly when the
      crore count needs four digits, and a negative amount has no words. */
  function ConvertInteger(n: int): (r: Option<string>)
    ensures r.None? <==> n >= 1000 * Crore
    ensures n == 0 ==> r == Some("Zero")
    ensures n < 0 ==> r == Some("")
  {
    if n == 0 then Some("Zero")
    else
      var crore := if n >= Crore then Part(n / Crore, " Crore ") else Some("");
      var n1 := if n >= Crore then n % Crore else n;
      var lakh := if n1 >= Lakh then Part(n1 / Lakh, " Lakh ") else Some("");
      var n2 := if n1 >= Lakh then n1 % Lakh else n1;
      var thousand := if n2 >= 1000 then Part(n2 / 1000, " Thousand ") else Some("");
      var n3 := if n2 >= 1000 then n2 % 1000 else n2;
      var rest := if n3 > 0 then LessThanThousand(n3) else Some("");
      if crore.None? || lakh.None? || thousand.None? || rest.None? then None
      else Some(Trim(crore.value + lakh.value + thousand.value + rest.value))
  }

  /** `number_to_words` for a whole amount: 0 is "Zero" with no currency word,
      anything else gets " Rupees" after it. */
  function NumberToWords(num: int): (r: Option<string>)
    ensures r.None? <==> num >= 1000 * Crore
    ensures num == 0 ==> r == Some("Zero")
    ensures num < 0 ==> r == Some(" Rupees")
  {
    if num == 0 then Some("Zero")
    else
      match ConvertInteger(num)
      case None => None
      case Some(w) =>
        assert "" + " Rupees" == " Rupees";
        Some(w + " Rupees")
  }

  // ---------------------------------------------------------------------------
  // The same words as a list

  /** A non-empty run of non-space characters. */
  predicate IsWord(w: string) {
    |w| > 0 && forall k :: 0 <= k < |w| ==> !IsSpace(w[k])
  }

  predicate AllWords(ws: seq<string>) {
    forall k :: 0 <= k < |ws| ==> IsWord(ws[k])
  }

  function HundredWords(n: nat): (ws: seq<string>)
    requires 0 < n < 100
    ensures 0 < |ws| <= 2
  {
    if n < 10 then [Ones[n]]
    else if n < 20 then [Teens[n - 10]]
    else [Tens[n / 10]] + (if n % 10 != 0 then [Ones[n % 10]] else [])
  }

  function ThousandWords(n: nat): (ws: seq<string>)
    requires 0 < n < 1000
    ensures |ws| > 0
  {
    if n < 100 then HundredWords(n)
    else [Ones[n / 100], "Hundred"] + (if n % 100 != 0 then HundredWords(n % 100) else [])
  }

  function ScaleWords(k: nat, scale: string): seq<string>
    requires k < 1000
  {
    if k == 0 then [] else ThousandWords(k) + [scale]
  }

  /** The words of 0 < n < 10^10, group by group. */
  function IntegerWords(n: nat): (ws: seq<string>)
    requires 0 < n < 1000 * Crore
    ensures |ws| > 0
  {
    var n1 := n % Crore;
    var n2 := n1 % Lakh;
    var r := n2 % 1000;
    ScaleWords(n / Crore, "Crore") + ScaleWords(n1 / Lakh, "Lakh") +
    ScaleWords(n2 / 1000, "Thousand") + (if r > 0 then ThousandWords(r) else [])
  }

  // ---------------------------------------------------------------------------
  // Reading words back

  /** The value a single word adds to the current group (0 for scale words,
      "Zero" and anything unknown). */
  function SmallValue(w: string): nat {
    if w == "One" then 1 else if w == "Two" then 2 else if w == "Three" then 3
    else if w == "Four" then 4 else if w == "Five" then 5 else if w == "Six" then 6
    else if w == "Seven" then 7 else if w == "Eight" then 8 else if w == "Nine" then 9
    else if w == "Ten" then 10 else if w == "Eleven" then 11 else if w == "Twelve" then 12
    else if w == "Thirteen" then 13 else if w == "Fourteen" then 14 else if w == "Fifteen" then 15
    else if w == "Sixteen" then 16 else if w == "Seventeen" then 17 else if w == "Eighteen" then 18
    else if w == "Nineteen" then 19
    else if w == "Twenty" then 20 else if w == "Thirty" then 30 else if w == "Forty" then 40
    else if w == "Fifty" then 50 else if w == "Sixty" then 60 else if w == "Seventy" then 70
    else if w == "Eighty" then 80 else if w == "Ninety" then 90
    else 0
  }

  /** A reader's state: the completed groups and the group being read. */
  datatype Reading = Reading(total: nat, group: nat)

  function Read(a: Reading, w: string): Reading {
    if w == "Hundred" then Reading(a.total, a.group * 100)
    else if w == "Thousand" then Reading(a.total + a.group * 1000, 0)
    else if w == "Lakh" then Reading(a.total + a.group * Lakh, 0)
    else if w == "Crore" then Reading(a.total + a.group * Crore, 0)
    else Reading(a.total, a.group + SmallValue(w))
  }

  function ReadAll(a: Reading, ws: seq<string>): Reading
    decreases |ws|
  {
    if |ws| == 0 then a else ReadAll(Read(a, ws[0]), ws[1..])
  }

  /** The amount a text of words separated by single spaces names. */
  function ReadAmount(s: string): nat {
    var a := ReadAll(Reading(0, 0), Split(s, ' '));
    a.total + a.group
  }

  // ---------------------------------------------------------------------------
  // Reading the words of a number gives the number

  lemma {:induction false} ReadAllAppend(a: Reading, x: seq<string>, y: seq<string>)
    ensures ReadAll(a, x + y) == ReadAll(ReadAll(a, x), y)
    decreases |x|
  {
    if |x| == 0 {
      assert x + y == y;
    } else {
      assert (x + y)[1..] == x[1..] + y;
      ReadAllAppend(Read(a, x[0]), x[1..], y);
    }
  }

  lemma ReadOne(a: Reading, w: string)
    ensures ReadAll(a, [w]) == Read(a, w)
  {
  }

  lemma ReadOnes(a: Reading, d: nat)
    requires 0 < d < 10
    ensures Read(a, Ones[d]) == Reading(a.total, a.group + d)
  {
  }

  lemma ReadTeens(a: Reading, d: nat)
    requires 0 <= d < 10
    ensures Read(a, Teens[d]) == Reading(a.total, a.group + 10 + d)
  {
  }

  lemma ReadTens(a: Reading, d: nat)
    requires 2 <= d < 10
    ensures Read(a, Tens[d]) == Reading(a.total, a.group + 10 * d)
  {
  }

  /** Words of a number below 100 add it to the current group. */
  lemma ReadBelowHundred(a: Reading, n: nat)
    requires 0 < n < 100
    ensures ReadAll(a, HundredWords(n)) == Reading(a.total, a.group + n)
  {
    if n < 10 {
      ReadOnes(a, n);
    } else if n < 20 {
      ReadTeens(a, n - 10);
    } else {
      var b := Read(a, Tens[n / 10]);
      ReadTens(a, n / 10);
      if n % 10 != 0 {
        ReadOnes(b, n % 10);
        ReadAllAppend(a, [Tens[n / 10]], [Ones[n % 10]]);
      }
    }
  }

  /** Words of a number below 1000, read into an empty group, leave it there. */
  lemma ReadBelowThousand(t: nat, n: nat)
    requires 0 < n < 1000
    ensures ReadAll(Reading(t, 0), ThousandWords(n)) == Reading(t, n)
  {
    if n < 100 {
      ReadBelowHundred(Reading(t, 0), n);
    } else {
      var h := n / 100;
      ReadOnes(Reading(t, 0), h);
      var head := [Ones[h], "Hundred"];
      ReadAllAppend(Reading(t, 0), [Ones[h]], ["Hundred"]);
      assert [Ones[h]] + ["Hundred"] == head;
      ReadOne(Reading(t, 0), Ones[h]);
      ReadOne(Reading(t, h), "Hundred");
      if n % 100 != 0 {
        ReadAllAppend(Reading(t, 0), head, HundredWords(n % 100));
        ReadBelowHundred(Reading(t, h * 100), n % 100);
      } else {
        assert ThousandWords(n) == head + [];
      }
    }
  }

  lemma ReadScale(t: nat, k: nat, scale: string, unit: nat)
    requires k < 1000
    requires (scale == "Crore" && unit == Crore) || (scale == "Lakh" && unit == Lakh) ||
             (scale == "Thousand" && unit == 1000)
    ensures ReadAll(Reading(t, 0), ScaleWords(k, scale)) == Reading(t + k * unit, 0)
  {
    if k > 0 {
      ReadBelowThousand(t, k);
      ReadAllAppend(Reading(t, 0), ThousandWords(k), [scale]);
    }
  }

  lemma GroupsAddUp(n: nat)
    ensures var n1 := n % Crore; var n2 := n1 % Lakh;
            n == n / Crore * Crore + n1 / Lakh * Lakh + n2 / 1000 * 1000 + n2 % 1000
  {
  }

  lemma ReadScales(a: nat, b: nat, d: nat)
    requires a < 1000 && b < 1000 && d < 1000
    ensures ReadAll(Reading(0, 0), ScaleWords(a, "Crore") + ScaleWords(b, "Lakh") + ScaleWords(d, "Thousand")) ==
            Reading(a * Crore + b * Lakh + d * 1000, 0)
  {
    var c, l, th := ScaleWords(a, "Crore"), ScaleWords(b, "Lakh"), ScaleWords(d, "Thousand");
    var t1 := a * Crore;
    var t2 := t1 + b * Lakh;
    ReadScale(0, a, "Crore", Crore);
    assert ReadAll(Reading(0, 0), c) == Reading(t1, 0);
    ReadScale(t1, b, "Lakh", Lakh);
    assert ReadAll(Reading(t1, 0), l) == Reading(t2, 0);
    ReadScale(t2, d, "Thousand", 1000);
    assert ReadAll(Reading(t2, 0), th) == Reading(t2 + d * 1000, 0);
    ReadAllAppend(Reading(0, 0), c, l);
    ReadAllAppend(Reading(0, 0), c + l, th);
  }

  /** The words of four group values read back as their weighted sum. */
  lemma ReadGroups(a: nat, b: nat, d: nat, r: nat)
    requires a < 1000 && b < 1000 && d < 1000 && r < 1000
    ensures var x := ReadAll(Reading(0, 0), ScaleWords(a, "Crore") + ScaleWords(b, "Lakh") +
                                          ScaleWords(d, "Thousand") + (if r > 0 then ThousandWords(r) else []));
            x.total + x.group == a * Crore + b * Lakh + d * 1000 + r
  {
    var head := ScaleWords(a, "Crore") + ScaleWords(b, "Lakh") + ScaleWords(d, "Thousand");
    var tail := if r > 0 then ThousandWords(r) else [];
    var t := a * Crore + b * Lakh + d * 1000;
    ReadScales(a, b, d);
    if r > 0 {
      ReadBelowThousand(t, r);
    }
    ReadThen(head, tail, t, r);
  }

  /** Reading the scale words and then the tail adds the tail's value. */
  lemma ReadThen(head: seq<string>, tail: seq<string>, t: nat, r: nat)
    requires ReadAll(Reading(0, 0), head) == Reading(t, 0)
    requires ReadAll(Reading(t, 0), tail) == Reading(t, r)
    ensures ReadAll(Reading(0, 0), head + tail) == Reading(t, r)
  {
    ReadAllAppend(Reading(0, 0), head, tail);
  }

  /** The group values of n, each below 1000 when n is below 10^10. */
  lemma GroupBounds(n: nat)
    requires n < 1000 * Crore
    ensures var n1 := n % Crore; var n2 := n1 % Lakh;
            n / Crore < 1000 && n1 / Lakh < 1000 && n2 / 1000 < 1000 && n2 % 1000 < 1000
  {
  }

  /** The words of n read back as n. */
  lemma ReadIntegerWords(n: nat)
    requires 0 < n < 1000 * Crore
    ensures var a := ReadAll(Reading(0, 0), IntegerWords(n)); a.total + a.group == n
  {
    var n1 := n % Crore;
    var n2 := n1 % Lakh;
    GroupBounds(n);
    ReadGroups(n / Crore, n1 / Lakh, n2 / 1000, n2 % 1000);
    GroupsAddUp(n);
  }

  // ---------------------------------------------------------------------------
  // The text is the word list joined by blanks

  lemma TableWords(d: nat)
    requires d < 10
    ensures d > 0 ==> IsWord(Ones[d])
    ensures IsWord(Teens[d])
    ensures d >= 2 ==> IsWord(Tens[d])
  {
    if d > 0 {
      OnesWord(d);
    }
    TeensWord(d);
    if d >= 2 {
      TensWord(d);
    }
  }

  lemma OnesWord(d: nat)
    requires 0 < d < 10
    ensures IsWord(Ones[d])
  {
  }

  lemma TeensWord(d: nat)
    requires d < 10
    ensures IsWord(Teens[d])
  {
  }

  lemma TensWord(d: nat)
    requires 2 <= d < 10
    ensures IsWord(Tens[d])
  {
  }

  lemma HundredWordsAreWords(n: nat)
    requires 0 < n < 100
    ensures AllWords(HundredWords(n))
  {
    if n < 10 {
      TableWords(n);
    } else if n < 20 {
      TableWords(n - 10);
    } else {
      TableWords(n / 10);
      TableWords(n % 10);
    }
  }

  lemma ThousandWordsAreWords(n: nat)
    requires 0 < n < 1000
    ensures AllWords(ThousandWords(n))
  {
    if n < 100 {
      HundredWordsAreWords(n);
    } else {
      TableWords(n / 100);
      assert IsWord("Hundred");
      if n % 100 != 0 {
        HundredWordsAreWords(n % 100);
      }
    }
  }

  lemma ScaleWordsAreWords(k: nat, scale: string)
    requires k < 1000 && IsWord(scale)
    ensures AllWords(ScaleWords(k, scale))
  {
    if k > 0 {
      ThousandWordsAreWords(k);
    }
  }

  lemma IntegerWordsAreWords(n: nat)
    requires 0 < n < 1000 * Crore
    ensures AllWords(IntegerWords(n))
  {
    var n1 := n % Crore;
    var n2 := n1 % Lakh;
    var r := n2 % 1000;
    assert IsWord("Crore") && IsWord("Lakh") && IsWord("Thousand");
    ScaleWordsAreWords(n / Crore, "Crore");
    ScaleWordsAreWords(n1 / Lakh, "Lakh");
    ScaleWordsAreWords(n2 / 1000, "Thousand");
    if r > 0 {
      ThousandWordsAreWords(r);
    }
  }

  /** Words joined by blanks start and end with a word character, and no word
      holds the blank. */
  lemma {:induction false} JoinWords(ws: seq<string>)
    requires |ws| > 0 && AllWords(ws)
    ensures var j := Join(ws, ' ');
            |j| > 0 && !IsSpace(j[0]) && !IsSpace(j[|j| - 1])
    ensures forall k :: 0 <= k < |ws| ==> ' ' !in ws[k]
  {
    forall k | 0 <= k < |ws|
      ensures ' ' !in ws[k]
    {
      assert IsWord(ws[k]);
    }
    if |ws| > 1 {
      JoinWords(ws[1..]);
    }
  }

  /** Below a hundred the words are one table entry, or a tens word and a
      units word. */
  lemma BelowHundredJoin(n: nat)
    requires 0 < n < 100
    ensures BelowHundred(n) == Join(HundredWords(n), ' ')
  {
    if 20 <= n {
      var a := Tens[n / 10];
      if n % 10 != 0 {
        var b := Ones[n % 10];
        JoinCons(a, [b], ' ');
        assert HundredWords(n) == [a] + [b];
        assert a + (" " + b) == a + [' '] + b;
      } else {
        assert HundredWords(n) == [a];
        assert a + "" == a;
      }
    }
  }

  lemma HundredHead(x: string)
    ensures Join([x, "Hundred"], ' ') == x + " Hundred"
  {
    JoinCons(x, ["Hundred"], ' ');
    assert [x, "Hundred"] == [x] + ["Hundred"];
  }

  lemma AppendBlank(a: string, b: string)
    ensures a + [' '] + b == a + (" " + b)
  {
  }

  /** The text of a hundreds word followed by the words of the rest. */
  lemma HundredText(x: string, rest: seq<string>)
    ensures Join([x, "Hundred"] + rest, ' ') ==
            x + " Hundred" + (if |rest| > 0 then " " + Join(rest, ' ') else "")
  {
    HundredHead(x);
    if |rest| > 0 {
      JoinAppend([x, "Hundred"], rest, ' ');
      AppendBlank(x + " Hundred", Join(rest, ' '));
    } else {
      assert [x, "Hundred"] + rest == [x, "Hundred"];
      assert x + " Hundred" + "" == x + " Hundred";
    }
  }

  lemma HundredsJoin(n: nat)
    requires 100 <= n < 1000
    ensures LessThanThousand(n) == Some(Join(ThousandWords(n), ' '))
  {
    var rest := if n % 100 != 0 then HundredWords(n % 100) else [];
    HundredText(Ones[n / 100], rest);
    if n % 100 != 0 {
      BelowHundredJoin(n % 100);
    }
  }

  /** `convert_less_than_thousand` writes the words of its argument separated
      by single blanks. */
  lemma LessThanThousandJoin(n: nat)
    requires 0 < n < 1000
    ensures LessThanThousand(n) == Some(Join(ThousandWords(n), ' '))
  {
    if n < 100 {
      BelowHundredJoin(n);
    } else {
      HundredsJoin(n);
    }
  }

  /** What a run of words contributes to `convert_integer`'s `result`: the words
      joined by blanks, followed by one blank. */
  function Acc(ws: seq<string>): string {
    if |ws| == 0 then "" else Join(ws, ' ') + " "
  }

  lemma AccAppend(x: seq<string>, y: seq<string>)
    ensures Acc(x + y) == Acc(x) + Acc(y)
  {
    if |x| == 0 {
      assert x + y == y;
    } else if |y| == 0 {
      assert x + y == x;
    } else {
      JoinAppend(x, y, ' ');
    }
  }

  /** One scale's piece of `result`, with its surrounding blanks. */
  lemma PartAcc(k: nat, scale: string, piece: string)
    requires 0 < k < 1000
    requires piece == " " + scale + " "
    ensures Part(k, piece) == Some(Acc(ScaleWords(k, scale)))
  {
    LessThanThousandJoin(k);
    var w := Join(ThousandWords(k), ' ');
    assert Part(k, piece) == Some(w + piece);
    JoinAppend(ThousandWords(k), [scale], ' ');
    assert Join([scale], ' ') == scale;
    assert Acc(ScaleWords(k, scale)) == w + [' '] + scale + " ";
    assert w + piece == w + [' '] + scale + " ";
  }

  /** The piece a scale adds, or nothing when the amount has no such group. */
  lemma ScalePiece(k: nat, scale: string, piece: string, present: bool)
    requires k < 1000 && (present <==> k > 0)
    requires piece == " " + scale + " "
    ensures (if present then Part(k, piece) else Some("")) == Some(Acc(ScaleWords(k, scale)))
  {
    if k > 0 {
      PartAcc(k, scale, piece);
    }
  }

  /** The remainders of `convert_integer`, with its `if n >= ...` guards dropped: taking
      the remainder of a smaller number changes nothing. */
  lemma ConvertIntegerUnfold(n: nat)
    requires 0 < n
    ensures var n1 := n % Crore; var n2 := n1 % Lakh; var r := n2 % 1000;
            var crore := if n >= Crore then Part(n / Crore, " Crore ") else Some("");
            var lakh := if n1 >= Lakh then Part(n1 / Lakh, " Lakh ") else Some("");
            var thousand := if n2 >= 1000 then Part(n2 / 1000, " Thousand ") else Some("");
            var rest := if r > 0 then LessThanThousand(r) else Some("");
            ConvertInteger(n) ==
            if crore.None? || lakh.None? || thousand.None? || rest.None? then None
            else Some(Trim(crore.value + lakh.value + thousand.value + rest.value))
  {
    var n1 := n % Crore;
    var n2 := n1 % Lakh;
    assert n1 == if n >= Crore then n % Crore else n;
    assert n2 == if n1 >= Lakh then n1 % Lakh else n1;
    assert n2 % 1000 == if n2 >= 1000 then n2 % 1000 else n2;
  }

  /** Combining four pieces that are all present. */
  lemma Assemble(crore: Option<string>, lakh: Option<string>, thousand: Option<string>, rest: Option<string>,
                 a: string, b: string, c: string, d: string)
    requires crore == Some(a) && lakh == Some(b) && thousand == Some(c) && rest == Some(d)
    ensures (if crore.None? || lakh.None? || thousand.None? || rest.None? then None
             else Some(Trim(crore.value + lakh.value + thousand.value + rest.value))) == Some(Trim(a + b + c + d))
  {
  }

  /** The pieces of four group values, each below 1000, combined. */
  lemma PiecesFromGroups(a: nat, b: nat, d: nat, r: nat, ga: bool, gb: bool, gd: bool)
    requires a < 1000 && b < 1000 && d < 1000 && r < 1000
    requires (ga <==> a > 0) && (gb <==> b > 0) && (gd <==> d > 0)
    ensures var crore := if ga then Part(a, " Crore ") else Some("");
            var lakh := if gb then Part(b, " Lakh ") else Some("");
            var thousand := if gd then Part(d, " Thousand ") else Some("");
            var rest := if r > 0 then LessThanThousand(r) else Some("");
            (if crore.None? || lakh.None? || thousand.None? || rest.None? then None
             else Some(Trim(crore.value + lakh.value + thousand.value + rest.value))) ==
            Some(Trim(Acc(ScaleWords(a, "Crore")) + Acc(ScaleWords(b, "Lakh")) +
                      Acc(ScaleWords(d, "Thousand")) + (if r > 0 then Join(ThousandWords(r), ' ') else "")))
  {
    ScalePiece(a, "Crore", " Crore ", ga);
    ScalePiece(b, "Lakh", " Lakh ", gb);
    ScalePiece(d, "Thousand", " Thousand ", gd);
    if r > 0 {
      LessThanThousandJoin(r);
    }
    Assemble(if ga then Part(a, " Crore ") else Some(""),
             if gb then Part(b, " Lakh ") else Some(""),
             if gd then Part(d, " Thousand ") else Some(""),
             if r > 0 then LessThanThousand(r) else Some(""),
             Acc(ScaleWords(a, "Crore")), Acc(ScaleWords(b, "Lakh")),
             Acc(ScaleWords(d, "Thousand")), if r > 0 then Join(ThousandWords(r), ' ') else "");
  }

  /** The guards `n >= Crore` and so on of `convert_integer` hold exactly when the group is non-zero. */
  lemma GroupGuards(n: nat)
    ensures var n1 := n % Crore; var n2 := n1 % Lakh;
            (n >= Crore <==> n / Crore > 0) && (n1 >= Lakh <==> n1 / Lakh > 0) && (n2 >= 1000 <==> n2 / 1000 > 0)
  {
  }

  /** The text `convert_integer` builds before stripping it: the pieces of the three
      scales, then the words of the last group. */
  lemma ConvertIntegerPieces(n: nat)
    requires 0 < n < 1000 * Crore
    ensures var n1 := n % Crore; var n2 := n1 % Lakh; var r := n2 % 1000;
            ConvertInteger(n) ==
            Some(Trim(Acc(ScaleWords(n / Crore, "Crore")) + Acc(ScaleWords(n1 / Lakh, "Lakh")) +
                      Acc(ScaleWords(n2 / 1000, "Thousand")) + (if r > 0 then Join(ThousandWords(r), ' ') else "")))
  {
    var n1 := n % Crore;
    var n2 := n1 % Lakh;
    ConvertIntegerUnfold(n);
    GroupBounds(n);
    GroupGuards(n);
    PiecesFromGroups(n / Crore, n1 / Lakh, n2 / 1000, n2 % 1000, n >= Crore, n1 >= Lakh, n2 >= 1000);
  }

  /** Stripping the words of `head`, each followed by a blank, then the words of
      `tail` joined by blanks, gives all the words joined by blanks. */
  lemma StripJoined(head: seq<string>, tail: seq<string>)
    requires |head + tail| > 0 && AllWords(head + tail)
    ensures Trim(Acc(head) + (if |tail| > 0 then Join(tail, ' ') else "")) == Join(head + tail, ' ')
  {
    if |tail| > 0 {
      StripJoinedTail(head, tail);
    } else {
      assert head + tail == head;
      StripJoinedHead(head);
    }
  }

  lemma StripJoinedTail(head: seq<string>, tail: seq<string>)
    requires |tail| > 0 && AllWords(head + tail)
    ensures Trim(Acc(head) + Join(tail, ' ')) == Join(head + tail, ' ')
  {
    var text := Acc(head) + Join(tail, ' ');
    JoinWords(head + tail);
    if |head| > 0 {
      JoinAppend(head, tail, ' ');
    } else {
      assert head + tail == tail;
    }
    assert text == Join(head + tail, ' ');
    TrimFixed(text);
  }

  lemma StripJoinedHead(head: seq<string>)
    requires |head| > 0 && AllWords(head)
    ensures Trim(Acc(head) + "") == Join(head, ' ')
  {
    var text := Acc(head) + "";
    JoinWords(head);
    TrimOfPaddedCore("", Join(head, ' '), " ");
    assert "" + Join(head, ' ') + " " == text;
  }

  /** `convert_integer` of 0 < n < 10^10 is the word list joined by blanks. */
  lemma ConvertIntegerJoin(n: nat)
    requires 0 < n < 1000 * Crore
    ensures ConvertInteger(n) == Some(Join(IntegerWords(n), ' '))
  {
    var n1 := n % Crore;
    var n2 := n1 % Lakh;
    var r := n2 % 1000;
    var c, l, th := ScaleWords(n / Crore, "Crore"), ScaleWords(n1 / Lakh, "Lakh"), ScaleWords(n2 / 1000, "Thousand");
    var tail := if r > 0 then ThousandWords(r) else [];
    assert IntegerWords(n) == c + l + th + tail;
    ConvertIntegerPieces(n);
    AccAppend(c, l);
    AccAppend(c + l, th);
    IntegerWordsAreWords(n);
    StripJoined(c + l + th, tail);
  }

  // ---------------------------------------------------------------------------
  // number_to_words

  /** For 0 < n < 10^10 the text is the words of n, then "Rupees", with single
      blanks between them. */
  lemma NumberToWordsJoin(n: int)
    requires 0 < n < 1000 * Crore
    ensures NumberToWords(n) == Some(Join(IntegerWords(n) + ["Rupees"], ' '))
  {
    ConvertIntegerJoin(n);
    RupeesAfter(IntegerWords(n));
  }

  /** The currency word joins the text with one blank. */
  lemma RupeesAfter(ws: seq<string>)
    requires |ws| > 0
    ensures Join(ws + ["Rupees"], ' ') == Join(ws, ' ') + " Rupees"
  {
    JoinSnoc(ws, "Rupees", ' ');
    BlankRupees();
  }

  lemma BlankRupees()
    ensures [' '] + "Rupees" == " Rupees"
  {
    assert ([' '] + "Rupees")[1..] == "Rupees";
  }

  /** Words, with the currency word at the end. */
  lemma AmountWords(n: nat)
    requires 0 < n < 1000 * Crore
    ensures AllWords(IntegerWords(n) + ["Rupees"])
  {
    IntegerWordsAreWords(n);
    assert IsWord("Rupees");
  }

  /** The text splits back into the words. */
  lemma SplitAmount(n: int)
    requires 0 < n < 1000 * Crore
    ensures NumberToWords(n).Some? && Split(NumberToWords(n).value, ' ') == IntegerWords(n) + ["Rupees"]
  {
    var ws := IntegerWords(n) + ["Rupees"];
    NumberToWordsJoin(n);
    AmountWords(n);
    JoinWords(ws);
    SplitJoin(ws, ' ');
  }

  /** The currency word adds nothing. */
  lemma ReadAmountWords(n: nat)
    requires 0 < n < 1000 * Crore
    ensures var a := ReadAll(Reading(0, 0), IntegerWords(n) + ["Rupees"]); a.total + a.group == n
  {
    ReadAllAppend(Reading(0, 0), IntegerWords(n), ["Rupees"]);
    ReadIntegerWords(n);
    ReadOne(ReadAll(Reading(0, 0), IntegerWords(n)), "Rupees");
  }

  /** Reading the text of a whole amount below 10^10 back gives the amount:
      distinct amounts get distinct texts, and each group lands on its scale. */
  lemma NumberToWordsRoundTrip(n: int)
    requires 0 <= n < 1000 * Crore
    ensures NumberToWords(n).Some?
    ensures ReadAmount(NumberToWords(n).value) == n
  {
    if n == 0 {
      SplitPlain("Zero", ' ');
      ReadOne(Reading(0, 0), "Zero");
    } else {
      SplitAmount(n);
      ReadAmountWords(n);
    }
  }

  /** Two amounts from 0 up with the same text are the same amount. */
  lemma NumberToWordsInjective(m: int, n: int)
    requires 0 <= m < 1000 * Crore && 0 <= n < 1000 * Crore
    requires NumberToWords(m) == NumberToWords(n)
    ensures m == n
  {
    NumberToWordsRoundTrip(m);
    NumberToWordsRoundTrip(n);
  }
}

=== FILE: ordering.dfy ===
/**
  The sort keys of `_sort_key` and `_to_int_or_str` and the order Python's
  `sorted` puts them in.

  A digit string becomes an int, anything else stays a str. Ints compare
  numerically, strs by code point, tuples element by element; `<` between an
  int and a str raises TypeError, so such keys have no order at all here:
  `Comparable` says when Python's comparison runs, and a sort over keys that are
  not pairwise comparable is an error for the callers.
 */
module Ordering {
  import opened Text
  import opened Wrappers

  datatype Atom = Num(n: nat) | Str(s: string)

  /** The key of a text: its decimal value when it is all ASCII digits, and
      the text itself otherwise. */
  function AtomOf(s: string): (a: Atom)
    ensures a.Num? <==> IsDigits(s)
    ensures a.Num? ==> a.n == Value(s)
    ensures a.Str? ==> a.s == s
  {
    if IsDigits(s) then Num(Value(s)) else Str(s)
  }

  /** Text made of the character '0' only (possibly none). */
  predicate AllZeros(z: string) {
    forall k :: 0 <= k < |z| ==> z[k] == '0'
  }

  /** The decimal text of a number has that number as its key, with any number
      of leading zeros, so `"7"` and `"007"` get the same key. */
  lemma AtomOfShowNat(z: string, n: nat)
    requires AllZeros(z)
    ensures AtomOf(ShowNat(n)) == Num(n)
    ensures AtomOf(z + ShowNat(n)) == Num(n)
  {
    ValueShowNat(n);
    LeadingZeros(z, ShowNat(n));
  }

  lemma {:induction false} ZerosValue(z: string)
    requires AllZeros(z)
    ensures Value(z) == 0
    decreases |z|
  {
    if |z| > 0 {
      ZerosValue(z[..|z| - 1]);
    }
  }

  lemma {:induction false} LeadingZeros(z: string, s: string)
    requires AllZeros(z) && IsDigits(s)
    ensures IsDigits(z + s) && Value(z + s) == Value(s)
    decreases |s|
  {
    var t := z + s;
    if |s| == 1 {
      assert t[..|t| - 1] == z;
      ZerosValue(z);
      assert s[..0] == "";
    } else {
      var i := s[..|s| - 1];
      LeadingZeros(z, i);
      assert t[..|t| - 1] == z + i;
      assert t[|t| - 1] == s[|s| - 1];
    }
  }

  /** A tuple of atoms, compared element by element. */
  type Key = seq<Atom>

  predicate SameKind(a: Atom, b: Atom) {
    a.Num? == b.Num?
  }

  /** `a < b` for two atoms of the same kind (false across kinds, where Python
      raises instead; `Comparable` keeps that case away from every sort). */
  predicate AtomLess(a: Atom, b: Atom) {
    match (a, b)
    case (Num(x), Num(y)) => x < y
    case (Str(x), Str(y)) => LexLess(x, y)
    case _ => false
  }

  /** `k1 < k2` runs without TypeError: at the first position where the tuples
      differ, both elements are ints or both are strs. */
  predicate Comparable(k1: Key, k2: Key) {
    if |k1| == 0 || |k2| == 0 then true
    else if k1[0] != k2[0] then SameKind(k1[0], k2[0])
    else Comparable(k1[1..], k2[1..])
  }

  /** Python's `k1 < k2` on tuples. */
  predicate KeyLess(k1: Key, k2: Key) {
    if |k1| == 0 then |k2| > 0
    else if |k2| == 0 then false
    else if k1[0] != k2[0] then AtomLess(k1[0], k2[0])
    else KeyLess(k1[1..], k2[1..])
  }

  // ---------------------------------------------------------------------------
  // KeyLess is a strict order, total on comparable keys

  lemma AtomLessTransitive(a: Atom, b: Atom, c: Atom)
    requires AtomLess(a, b) && AtomLess(b, c)
    ensures AtomLess(a, c)
  {
    if a.Str? {
      LexLessTransitive(a.s, b.s, c.s);
    }
  }

  lemma {:induction false} KeyLessIrreflexive(k: Key)
    ensures !KeyLess(k, k)
    decreases |k|
  {
    if |k| > 0 {
      KeyLessIrreflexive(k[1..]);
    }
  }

  lemma {:induction false} KeyLessTransitive(a: Key, b: Key, c: Key)
    requires KeyLess(a, b) && KeyLess(b, c)
    ensures KeyLess(a, c)
    decreases |a|
  {
    if |a| > 0 {
      if a[0] != b[0] && b[0] != c[0] {
        AtomLessTransitive(a[0], b[0], c[0]);
        if a[0] == c[0] {
          LexLessIrreflexive(a[0].s);
        }
      } else if a[0] == b[0] && b[0] == c[0] {
        KeyLessTransitive(a[1..], b[1..], c[1..]);
      }
    }
  }

  lemma KeyLessAsymmetric(a: Key, b: Key)
    requires KeyLess(a, b)
    ensures !KeyLess(b, a)
  {
    if KeyLess(b, a) {
      KeyLessTransitive(a, b, a);
      KeyLessIrreflexive(a);
    }
  }

  lemma {:induction false} KeyLessTotal(a: Key, b: Key)
    requires Comparable(a, b) && a != b
    ensures KeyLess(a, b) || KeyLess(b, a)
    decreases |a|
  {
    if |a| > 0 && |b| > 0 {
      if a[0] != b[0] {
        if a[0].Str? {
          LexLessTotal(a[0].s, b[0].s);
        }
      } else {
        assert a == [a[0]] + a[1..] && b == [b[0]] + b[1..];
        KeyLessTotal(a[1..], b[1..]);
      }
    }
  }

  // ---------------------------------------------------------------------------
  // Sorting a sequence by a key

  /** Python's `sorted` runs without TypeError on these elements. */
  predicate AllComparable<T(==)>(s: seq<T>, key: T -> Key) {
    forall a, b :: a in s && b in s ==> Comparable(key(a), key(b))
  }

  /** No element is strictly smaller than one before it. */
  predicate Sorted<T>(s: seq<T>, key: T -> Key) {
    forall i, j :: 0 <= i < j < |s| ==> !KeyLess(key(s[j]), key(s[i]))
  }

  /** The elements whose key is `k`, in their order. */
  function Filter<T>(s: seq<T>, key: T -> Key, k: Key): seq<T>
  {
    if |s| == 0 then []
    else (if key(s[0]) == k then [s[0]] else []) + Filter(s[1..], key, k)
  }

  /** Place `x` after every element of `s` that is not greater than it. */
  function Insert<T>(x: T, s: seq<T>, key: T -> Key): (r: seq<T>)
    ensures multiset(r) == multiset(s) + multiset{x}
  {
    if |s| == 0 then [x]
    else if KeyLess(key(x), key(s[0])) then [x] + s
    else
      assert s == [s[0]] + s[1..];
      [s[0]] + Insert(x, s[1..], key)
  }

  /** Insertion sort, taking the elements in their order: Python's stable `sorted`. */
  function SortBy<T>(s: seq<T>, key: T -> Key): (r: seq<T>)
    ensures multiset(r) == multiset(s)
    ensures Sorted(r, key)
  {
    if |s| == 0 then []
    else
      var init := s[..|s| - 1];
      assert s == init + [s[|s| - 1]];
      var r := SortBy(init, key);
      InsertSorted(s[|s| - 1], r, key);
      Insert(s[|s| - 1], r, key)
  }

  lemma {:induction false} InsertSorted<T>(x: T, s: seq<T>, key: T -> Key)
    requires Sorted(s, key)
    ensures Sorted(Insert(x, s, key), key)
    decreases |s|
  {
    if |s| > 0 {
      if KeyLess(key(x), key(s[0])) {
        BelowHead(x, s, key);
        SortedCons(x, s, key);
      } else {
        var tail := Insert(x, s[1..], key);
        InsertSorted(x, s[1..], key);
        HeadBelowInsert(x, s, key);
        SortedCons(s[0], tail, key);
      }
    }
  }

  /** Putting in front an element no other is below keeps a sequence sorted. */
  lemma SortedCons<T>(x: T, s: seq<T>, key: T -> Key)
    requires Sorted(s, key)
    requires forall j :: 0 <= j < |s| ==> !KeyLess(key(s[j]), key(x))
    ensures Sorted([x] + s, key)
  {
    var r := [x] + s;
    forall i, j | 0 <= i < j < |r|
      ensures !KeyLess(key(r[j]), key(r[i]))
    {
      if i == 0 {
        assert r[j] == s[j - 1];
      } else {
        assert r[i] == s[i - 1] && r[j] == s[j - 1];
      }
    }
  }

  /** An element below the head of a sorted sequence is below all of it. */
  lemma BelowHead<T>(x: T, s: seq<T>, key: T -> Key)
    requires Sorted(s, key) && |s| > 0 && KeyLess(key(x), key(s[0]))
    ensures forall j :: 0 <= j < |s| ==> !KeyLess(key(s[j]), key(x))
  {
    forall j | 0 <= j < |s|
      ensures !KeyLess(key(s[j]), key(x))
    {
      if KeyLess(key(s[j]), key(x)) {
        KeyLessTransitive(key(s[j]), key(x), key(s[0]));
        if j == 0 {
          KeyLessIrreflexive(key(s[0]));
        }
      }
    }
  }

  /** When `x` is not below the head, nothing inserted after the head is below it. */
  lemma HeadBelowInsert<T>(x: T, s: seq<T>, key: T -> Key)
    requires Sorted(s, key) && |s| > 0 && !KeyLess(key(x), key(s[0]))
    ensures forall j :: 0 <= j < |Insert(x, s[1..], key)| ==> !KeyLess(key(Insert(x, s[1..], key)[j]), key(s[0]))
  {
    var tail := Insert(x, s[1..], key);
    forall j | 0 <= j < |tail|
      ensures !KeyLess(key(tail[j]), key(s[0]))
    {
      var e := tail[j];
      assert e in multiset(tail);
      assert e in multiset(s[1..]) || e == x;
      if e != x {
        var m :| 0 <= m < |s[1..]| && s[1..][m] == e;
        assert s[m + 1] == e;
      }
    }
  }

  // ---------------------------------------------------------------------------
  // Stability

  lemma {:induction false} FilterAppend<T>(a: seq<T>, b: seq<T>, key: T -> Key, k: Key)
    ensures Filter(a + b, key, k) == Filter(a, key, k) + Filter(b, key, k)
  {
    if |a| > 0 {
      assert (a + b)[1..] == a[1..] + b;
      FilterAppend(a[1..], b, key, k);
    } else {
      assert a + b == b;
    }
  }

  lemma {:induction false} FilterNone<T>(s: seq<T>, key: T -> Key, k: Key)
    requires forall j :: 0 <= j < |s| ==> key(s[j]) != k
    ensures Filter(s, key, k) == []
  {
    if |s| > 0 {
      FilterNone(s[1..], key, k);
    }
  }

  lemma {:induction false} InsertStable<T>(x: T, s: seq<T>, key: T -> Key, k: Key)
    requires Sorted(s, key)
    ensures Filter(Insert(x, s, key), key, k) ==
            Filter(s, key, k) + (if key(x) == k then [x] else [])
    decreases |s|
  {
    if |s| == 0 {
      FilterSingle(x, key, k);
    } else if KeyLess(key(x), key(s[0])) {
      InsertFront(x, s, key, k);
    } else {
      SortedTail(s, key);
      InsertStable(x, s[1..], key, k);
      InsertLater(x, s, key, k);
    }
  }

  /** Stability when `x` goes in front. */
  lemma InsertFront<T>(x: T, s: seq<T>, key: T -> Key, k: Key)
    requires Sorted(s, key) && |s| > 0 && KeyLess(key(x), key(s[0]))
    ensures Filter([x] + s, key, k) == Filter(s, key, k) + (if key(x) == k then [x] else [])
  {
    FilterCons(x, s, key, k);
    if key(x) == k {
      NoneWithKeyBelowHead(x, s, key);
    } else {
      assert [] + Filter(s, key, k) == Filter(s, key, k) + [];
    }
  }

  /** Stability when `x` goes after the head, given stability for the rest. */
  lemma InsertLater<T>(x: T, s: seq<T>, key: T -> Key, k: Key)
    requires |s| > 0
    requires Filter(Insert(x, s[1..], key), key, k) == Filter(s[1..], key, k) + (if key(x) == k then [x] else [])
    ensures Filter([s[0]] + Insert(x, s[1..], key), key, k) == Filter(s, key, k) + (if key(x) == k then [x] else [])
  {
    assert s == [s[0]] + s[1..];
    FilterConsAppend(s[0], s[1..], Insert(x, s[1..], key), key, k, if key(x) == k then [x] else []);
  }

  /** Putting the same element in front of `i` and of `t` keeps the relation
      `Filter(i) == Filter(t) + m`. */
  lemma FilterConsAppend<T>(y: T, t: seq<T>, i: seq<T>, key: T -> Key, k: Key, m: seq<T>)
    requires Filter(i, key, k) == Filter(t, key, k) + m
    ensures Filter([y] + i, key, k) == Filter([y] + t, key, k) + m
  {
    var h: seq<T> := if key(y) == k then [y] else [];
    FilterCons(y, i, key, k);
    FilterCons(y, t, key, k);
    assert h + (Filter(t, key, k) + m) == (h + Filter(t, key, k)) + m;
  }

  lemma FilterCons<T>(y: T, t: seq<T>, key: T -> Key, k: Key)
    ensures Filter([y] + t, key, k) == (if key(y) == k then [y] else []) + Filter(t, key, k)
  {
    assert ([y] + t)[1..] == t;
  }

  lemma SortedTail<T>(s: seq<T>, key: T -> Key)
    requires Sorted(s, key) && |s| > 0
    ensures Sorted(s[1..], key)
  {
    forall i, j | 0 <= i < j < |s[1..]|
      ensures !KeyLess(key(s[1..][j]), key(s[1..][i]))
    {
      assert s[1..][j] == s[j + 1] && s[1..][i] == s[i + 1];
    }
  }

  /** No element of a sorted sequence shares the key of one below its head. */
  lemma NoneWithKeyBelowHead<T>(x: T, s: seq<T>, key: T -> Key)
    requires Sorted(s, key) && |s| > 0 && KeyLess(key(x), key(s[0]))
    ensures Filter(s, key, key(x)) == []
  {
    forall j | 0 <= j < |s|
      ensures key(s[j]) != key(x)
    {
      if j == 0 {
        KeyLessIrreflexive(key(x));
      }
    }
    FilterNone(s, key, key(x));
  }

  lemma FilterSingle<T>(x: T, key: T -> Key, k: Key)
    ensures Filter([x], key, k) == if key(x) == k then [x] else []
  {
    assert [x][1..] == [];
  }

  lemma SortByLast<T>(s: seq<T>, key: T -> Key)
    requires |s| > 0
    ensures SortBy(s, key) == Insert(s[|s| - 1], SortBy(s[..|s| - 1], key), key)
  {
  }

  /** Elements with equal keys keep their input order. */
  lemma {:induction false} SortStable<T>(s: seq<T>, key: T -> Key, k: Key)
    ensures Filter(SortBy(s, key), key, k) == Filter(s, key, k)
  {
    if |s| > 0 {
      var init := s[..|s| - 1];
      var x := s[|s| - 1];
      var single := if key(x) == k then [x] else [];
      calc {
        Filter(SortBy(s, key), key, k);
        == { SortByLast(s, key); }
        Filter(Insert(x, SortBy(init, key), key), key, k);
        == { InsertStable(x, SortBy(init, key), key, k); }
        Filter(SortBy(init, key), key, k) + single;
        == { SortStable(init, key, k); }
        Filter(init, key, k) + single;
        == { FilterSingle(x, key, k); FilterAppend(init, [x], key, k); }
        Filter(init + [x], key, k);
        == { assert s == init + [x]; }
        Filter(s, key, k);
      }
    }
  }

  lemma SortStableAll<T>(s: seq<T>, key: T -> Key)
    ensures forall k :: Filter(SortBy(s, key), key, k) == Filter(s, key, k)
  {
    forall k
      ensures Filter(SortBy(s, key), key, k) == Filter(s, key, k)
    {
      SortStable(s, key, k);
    }
  }

  // ---------------------------------------------------------------------------
  // Uniqueness: a sorted arrangement that keeps every key's order is SortBy

  lemma {:induction false} FilterHead<T>(s: seq<T>, key: T -> Key)
    requires |s| > 0
    ensures Filter(s, key, key(s[0])) == [s[0]] + Filter(s[1..], key, key(s[0]))
  {
  }

  lemma {:induction false} FilterMember<T>(s: seq<T>, key: T -> Key, x: T)
    requires x in s
    ensures x in Filter(s, key, key(x))
  {
    if s[0] != x {
      FilterMember(s[1..], key, x);
    }
  }

  lemma {:induction false} FilterIn<T>(s: seq<T>, key: T -> Key, k: Key, x: T)
    requires x in Filter(s, key, k)
    ensures x in s && key(x) == k
  {
    if |s| > 0 && !(key(s[0]) == k && x == s[0]) {
      FilterIn(s[1..], key, k, x);
    }
  }

  /** Two sorted sequences with the same elements per key, in the same order
      per key, are equal. Hence `SortBy` is the one result a stable sort can give. */
  lemma {:induction false} SortedUnique<T>(r1: seq<T>, r2: seq<T>, key: T -> Key)
    requires Sorted(r1, key) && Sorted(r2, key) && AllComparable(r1, key)
    requires forall k :: Filter(r1, key, k) == Filter(r2, key, k)
    ensures r1 == r2
    decreases |r1|
  {
    if |r1| == 0 {
      if |r2| > 0 {
        FilterHead(r2, key);
        assert false;
      }
    } else if |r2| == 0 {
      FilterHead(r1, key);
      assert false;
    } else {
      var a, b := r1[0], r2[0];
      // a occurs in r2 and b occurs in r1, so neither key is below the other.
      FilterMember(r1, key, a);
      FilterIn(r2, key, key(a), a);
      FilterMember(r2, key, b);
      FilterIn(r1, key, key(b), b);
      var ia :| 0 <= ia < |r2| && r2[ia] == a;
      var ib :| 0 <= ib < |r1| && r1[ib] == b;
      assert !KeyLess(key(a), key(b)) by {
        if ia > 0 { assert !KeyLess(key(r2[ia]), key(r2[0])); }
        else { KeyLessIrreflexive(key(a)); }
      }
      assert !KeyLess(key(b), key(a)) by {
        if ib > 0 { assert !KeyLess(key(r1[ib]), key(r1[0])); }
        else { KeyLessIrreflexive(key(b)); }
      }
      if key(a) != key(b) {
        KeyLessTotal(key(a), key(b));
      }
      FilterHead(r1, key);
      FilterHead(r2, key);
      assert key(a) == key(b);
      assert Filter(r1, key, key(a))[0] == a;
      assert Filter(r2, key, key(b))[0] == b;
      forall k
        ensures Filter(r1[1..], key, k) == Filter(r2[1..], key, k)
      {
        var p: seq<T> := if key(a) == k then [a] else [];
        var t1, t2 := Filter(r1[1..], key, k), Filter(r2[1..], key, k);
        assert Filter(r1, key, k) == p + t1;
        assert Filter(r2, key, k) == p + t2;
        assert t1 == (p + t1)[|p|..] && t2 == (p + t2)[|p|..];
      }
      forall i, j | 0 <= i < j < |r1[1..]|
        ensures !KeyLess(key(r1[1..][j]), key(r1[1..][i]))
      {
        assert r1[1..][i] == r1[i + 1] && r1[1..][j] == r1[j + 1];
      }
      forall i, j | 0 <= i < j < |r2[1..]|
        ensures !KeyLess(key(r2[1..][j]), key(r2[1..][i]))
      {
        assert r2[1..][i] == r2[i + 1] && r2[1..][j] == r2[j + 1];
      }
      SortedUnique(r1[1..], r2[1..], key);
      assert r1 == [a] + r1[1..] && r2 == [b] + r2[1..];
    }
  }

  /** Python's `sorted` is stable and its result is sorted; the only such
      arrangement of comparable elements is `SortBy`. */
  lemma StableSortIsSortBy<T>(s: seq<T>, r: seq<T>, key: T -> Key)
    requires AllComparable(s, key)
    requires Sorted(r, key)
    requires forall k :: Filter(r, key, k) == Filter(s, key, k)
    ensures r == SortBy(s, key)
  {
    var q := SortBy(s, key);
    forall k
      ensures Filter(q, key, k) == Filter(r, key, k)
    {
      SortStable(s, key, k);
    }
    forall a, b | a in q && b in q
      ensures Comparable(key(a), key(b))
    {
      assert a in multiset(s) && b in multiset(s);
    }
    SortedUnique(q, r, key);
  }

  // ---------------------------------------------------------------------------
  // Sorting a set of tokens with `_sort_key`

  function TokenKey(t: string): Key {
    [AtomOf(t)]
  }

  /** One token sorts as an int and another as a str. */
  predicate Mixed(ts: set<string>) {
    exists x, y :: x in ts && y in ts && IsDigits(x) && !IsDigits(y)
  }

  /** Mixed is exactly the presence of two tokens Python cannot compare. */
  lemma MixedIffIncomparable(ts: set<string>)
    ensures Mixed(ts) <==>
            exists x, y :: x in ts && y in ts && !Comparable(TokenKey(x), TokenKey(y))
  {
    if Mixed(ts) {
      var x, y :| x in ts && y in ts && IsDigits(x) && !IsDigits(y);
      assert !Comparable(TokenKey(x), TokenKey(y));
    }
  }

  /** `sorted(tokens, key=_sort_key)` over a set. Tokens with equal keys (such
      as "7" and "007") come out in the set's iteration order, which Python
      does not fix; the choice here is left open the same way. */
  method SortTokens(ts: set<string>) returns (r: Result<seq<string>, Failure>)
    ensures r.Ok? <==> !Mixed(ts)
    ensures r.Err? ==> r.error == TypeError
    ensures r.Ok? ==> Sorted(r.value, TokenKey) && multiset(r.value) == multiset(ts)
  {
    if Mixed(ts) {
      return Err(TypeError);
    }
    var acc: seq<string> := [];
    var rest := ts;
    while rest != {}
      invariant rest <= ts
      invariant multiset(acc) == multiset(ts - rest)
      invariant Sorted(acc, TokenKey)
      decreases |rest|
    {
      var t :| t in rest;
      InsertSorted(t, acc, TokenKey);
      assert ts - (rest - {t}) == (ts - rest) + {t};
      acc := Insert(t, acc, TokenKey);
      rest := rest - {t};
    }
    assert ts - rest == ts;
    return Ok(acc);
  }

  /** A listing of a set without repeats is a permutation of the set. */
  lemma {:induction false} DistinctListing(s: seq<string>, ts: set<string>)
    requires forall i, j :: 0 <= i < j < |s| ==> s[i] != s[j]
    requires forall x :: x in s <==> x in ts
    ensures multiset(s) == multiset(ts)
    decreases |s|
  {
    if |s| == 0 {
      assert forall x :: x !in ts;
      assert ts == {};
    } else {
      var x, rest := s[0], s[1..];
      var ts' := ts - {x};
      assert s == [x] + rest;
      forall i, j | 0 <= i < j < |rest|
        ensures rest[i] != rest[j]
      {
        assert rest[i] == s[i + 1] && rest[j] == s[j + 1];
      }
      forall y
        ensures y in rest <==> y in ts'
      {
        if y in rest {
          var i :| 0 <= i < |rest| && rest[i] == y;
          assert s[i + 1] == y;
        }
        if y in ts' {
          var i :| 0 <= i < |s| && s[i] == y;
          assert rest[i - 1] == y;
        }
      }
      DistinctListing(rest, ts');
      SetMultisetAdd(ts', x);
      assert ts == ts' + {x};
    }
  }

  lemma SetMultisetAdd(ts: set<string>, x: string)
    requires x !in ts
    ensures multiset(ts + {x}) == multiset(ts) + multiset{x}
  {
  }

  /** A sorted arrangement of a set lists each member once. */
  lemma SortedTokensDistinct(ts: set<string>, s: seq<string>)
    requires multiset(s) == multiset(ts)
    ensures |s| == |ts|
    ensures forall x :: x in s <==> x in ts
    ensures forall i, j :: 0 <= i < j < |s| ==> s[i] != s[j]
  {
    assert |multiset(s)| == |s|;
    forall x
      ensures x in s <==> x in ts
    {
      assert x in s <==> x in multiset(s);
    }
    forall i, j | 0 <= i < j < |s|
      ensures s[i] != s[j]
    {
      assert multiset(s)[s[i]] <= 1;
      assert s == s[..j] + [s[j]] + s[j + 1..];
      assert s[i] in multiset(s[..j]);
    }
  }
}

=== FILE: pivot.dfy ===
/**
  The item-hierarchy pivot of `create_packaging_list`: for every item, in
  `_sort_key` order, its boxes in `_sort_key` order, its relationship type and
  the details of each box taken from `box_lookup`.
 */
module Pivot {
  import opened Wrappers
  import opened Fields
  import opened Ordering
  import opened ModuleB
  import ModuleA

  datatype Relationship = OneToOne | OneToMany | ManyToOne

  /** `box_to_items.get(b, set())`. */
  function ItemsOf(boxToItems: Index, b: string): set<string> {
    if b in boxToItems then boxToItems[b] else {}
  }

  /** The relationship test of `create_packaging_list` over the item's sorted
      box list and `box_to_items`: a shared box decides first, whatever the
      number of boxes; only then does the number of boxes matter. */
  function Classify(boxList: seq<string>, boxToItems: Index): (r: Relationship)
    ensures r == ManyToOne <==> exists b :: b in boxList && |ItemsOf(boxToItems, b)| > 1
    ensures r == OneToOne ==> |boxList| <= 1
    ensures r == OneToMany ==> |boxList| > 1 && forall b :: b in boxList ==> |ItemsOf(boxToItems, b)| <= 1
  {
    if exists k :: 0 <= k < |boxList| && |ItemsOf(boxToItems, boxList[k])| > 1 then ManyToOne
    else if |boxList| > 1 then OneToMany
    else OneToOne
  }

  /** Some box of item i also holds another item. */
  ghost predicate SharesBox(m: Index, i: string) {
    exists j, b :: j != i && Has(m, i, b) && Has(m, j, b)
  }

  /** The relationship read off `item_to_boxes` alone: Many-to-One when a box
      of the item is shared, else One-to-Many when the item has several boxes,
      else One-to-One. */
  ghost function RelationshipOf(m: Index, i: string): Relationship
    requires i in m
  {
    if SharesBox(m, i) then ManyToOne
    else if |m[i]| > 1 then OneToMany
    else OneToOne
  }

  lemma TwoMembers(s: set<string>, x: string, y: string)
    requires x in s && y in s && x != y
    ensures |s| > 1
  {
    var t := s - {x};
    assert s == t + {x};
    assert y in t;
  }

  lemma OtherMember(s: set<string>, x: string) returns (y: string)
    requires x in s && |s| > 1
    ensures y in s && y != x
  {
    assert |s - {x}| == |s| - 1;
    y :| y in s - {x};
  }

  /** Classifying through `box_to_items` gives the relationship defined from
      `item_to_boxes` alone. */
  lemma ClassifyMatches(m: Index, inv: Index, i: string, boxList: seq<string>)
    requires IsInverse(m, inv)
    requires i in m
    requires |boxList| == |m[i]|
    requires forall b :: b in boxList <==> b in m[i]
    ensures Classify(boxList, inv) == RelationshipOf(m, i)
  {
    var shared := exists k :: 0 <= k < |boxList| && |ItemsOf(inv, boxList[k])| > 1;
    if shared {
      var k :| 0 <= k < |boxList| && |ItemsOf(inv, boxList[k])| > 1;
      var b := boxList[k];
      assert Has(inv, b, i);
      var j := OtherMember(inv[b], i);
      assert Has(m, j, b);
    }
    if SharesBox(m, i) {
      var j, b :| j != i && Has(m, i, b) && Has(m, j, b);
      TwoMembers(inv[b], i, j);
      var k :| 0 <= k < |boxList| && boxList[k] == b;
    }
  }

  // ---------------------------------------------------------------------------
  // Associated boxes

  /** `None` where Python has None (a missing key or null). */
  function Nullable(f: Field): Option<string> {
    if f.Text? then Some(f.s) else None
  }

  /** One entry of `associatedBoxes`. */
  datatype AssociatedBox = AssociatedBox(
    boxNo: string,
    description: Option<string>,
    qty: Amount,
    l: Option<string>, w: Option<string>, h: Option<string>,
    net: Amount, gross: Amount)

  /** The empty dict `box_lookup.get(b, {})` falls back to. */
  const NoDetails := ModuleA.Details(Absent, ModuleA.Measures(Absent, Absent, Absent, Absent, Absent, Absent))

  function Associate(b: string, lookup: map<string, ModuleA.Details>): (r: AssociatedBox)
    ensures r.boxNo == b
    ensures b !in lookup ==> r == AssociatedBox(b, Some("N/A"), Zero, None, None, None, Zero, Zero)
    ensures b in lookup ==>
              var d := lookup[b];
              r.qty == Sf(d.measures.qty) && r.net == Sf(d.measures.netWt) && r.gross == Sf(d.measures.grossWt) &&
              r.l == Nullable(d.measures.l) && r.w == Nullable(d.measures.w) && r.h == Nullable(d.measures.h) &&
              (r.description == if d.description.Absent? then Some("N/A") else Nullable(d.description))
  {
    var d := if b in lookup then lookup[b] else NoDetails;
    AssociatedBox(
      b,
      if d.description.Absent? then Some("N/A") else Nullable(d.description),
      Sf(d.measures.qty),
      Nullable(d.measures.l), Nullable(d.measures.w), Nullable(d.measures.h),
      Sf(d.measures.netWt), Sf(d.measures.grossWt))
  }

  // ---------------------------------------------------------------------------
  // itemHierarchies

  datatype Hierarchy = Hierarchy(item: string, relationship: Relationship, boxes: seq<AssociatedBox>)

  function BoxNos(h: Hierarchy): seq<string> {
    seq(|h.boxes|, k requires 0 <= k < |h.boxes| => h.boxes[k].boxNo)
  }

  function Items(hs: seq<Hierarchy>): (r: seq<string>)
    ensures |r| == |hs|
    ensures forall k :: 0 <= k < |hs| ==> r[k] == hs[k].item
  {
    seq(|hs|, k requires 0 <= k < |hs| => hs[k].item)
  }

  /** No set that gets sorted mixes int and str keys. */
  predicate Sortable(m: Index) {
    !Mixed(m.Keys) && forall i :: i in m ==> !Mixed(m[i])
  }

  /** What one hierarchy holds: its item's boxes, each once, in key order, each
      with its looked-up details, and the item's relationship. */
  ghost predicate HierarchyOf(m: Index, lookup: map<string, ModuleA.Details>, h: Hierarchy) {
    h.item in m &&
    multiset(BoxNos(h)) == multiset(m[h.item]) &&
    Sorted(BoxNos(h), TokenKey) &&
    (forall k :: 0 <= k < |h.boxes| ==> h.boxes[k] == Associate(h.boxes[k].boxNo, lookup)) &&
    h.relationship == RelationshipOf(m, h.item)
  }

  /** The whole result: one hierarchy per item, items in key order. */
  ghost predicate Pivoted(m: Index, lookup: map<string, ModuleA.Details>, hs: seq<Hierarchy>) {
    multiset(Items(hs)) == multiset(m.Keys) &&
    Sorted(Items(hs), TokenKey) &&
    forall k :: 0 <= k < |hs| ==> HierarchyOf(m, lookup, hs[k])
  }

  /** The hierarchy the loop body builds for one item from its sorted boxes. */
  function MakeHierarchy(item: string, boxList: seq<string>, inv: Index, lookup: map<string, ModuleA.Details>): (h: Hierarchy)
    ensures BoxNos(h) == boxList
  {
    var assoc := seq(|boxList|, j requires 0 <= j < |boxList| => Associate(boxList[j], lookup));
    Hierarchy(item, Classify(boxList, inv), assoc)
  }

  /** Built from any sorted arrangement of the item's boxes, the hierarchy is
      the one `HierarchyOf` describes. */
  lemma MakeHierarchyOf(m: Index, inv: Index, lookup: map<string, ModuleA.Details>, item: string, boxList: seq<string>)
    requires IsInverse(m, inv) && item in m
    requires multiset(boxList) == multiset(m[item]) && Sorted(boxList, TokenKey)
    ensures HierarchyOf(m, lookup, MakeHierarchy(item, boxList, inv, lookup))
  {
    SortedTokensDistinct(m[item], boxList);
    ClassifyMatches(m, inv, item, boxList);
  }

  /** The box sets of the items, each sorted. The handler sorts one item's set
      just before building its hierarchy; nothing else happens in between, so
      the first set that cannot be sorted aborts it all the same. */
  method SortBoxSets(m: Index, items: seq<string>) returns (r: Result<seq<seq<string>>, Failure>)
    requires forall j :: 0 <= j < |items| ==> items[j] in m
    ensures r.Ok? <==> forall j :: 0 <= j < |items| ==> !Mixed(m[items[j]])
    ensures r.Err? ==> r.error == TypeError
    ensures r.Ok? ==> |r.value| == |items| &&
                      forall j :: 0 <= j < |items| ==>
                        multiset(r.value[j]) == multiset(m[items[j]]) && Sorted(r.value[j], TokenKey)
  {
    var lists: seq<seq<string>> := [];
    var k := 0;
    while k < |items|
      invariant 0 <= k <= |items| && |lists| == k
      invariant forall j :: 0 <= j < k ==> !Mixed(m[items[j]])
      invariant forall j :: 0 <= j < k ==> multiset(lists[j]) == multiset(m[items[j]]) && Sorted(lists[j], TokenKey)
    {
      var sorted := SortTokens(m[items[k]]);
      if sorted.Err? {
        return Err(TypeError);
      }
      lists := lists + [sorted.value];
      k := k + 1;
    }
    return Ok(lists);
  }

  /** One hierarchy per item, from the item's sorted box list. */
  function MakeHierarchies(items: seq<string>, boxLists: seq<seq<string>>, inv: Index,
                           lookup: map<string, ModuleA.Details>): (hs: seq<Hierarchy>)
    requires |boxLists| == |items|
    ensures Items(hs) == items
  {
    seq(|items|, j requires 0 <= j < |items| => MakeHierarchy(items[j], boxLists[j], inv, lookup))
  }

  lemma MakeHierarchiesPivoted(m: Index, inv: Index, lookup: map<string, ModuleA.Details>,
                               items: seq<string>, boxLists: seq<seq<string>>)
    requires IsInverse(m, inv)
    requires multiset(items) == multiset(m.Keys) && Sorted(items, TokenKey)
    requires |boxLists| == |items|
    requires forall j :: 0 <= j < |items| ==> items[j] in m
    requires forall j :: 0 <= j < |items| ==>
               multiset(boxLists[j]) == multiset(m[items[j]]) && Sorted(boxLists[j], TokenKey)
    ensures Pivoted(m, lookup, MakeHierarchies(items, boxLists, inv, lookup))
  {
    var hs := MakeHierarchies(items, boxLists, inv, lookup);
    SortedTokensDistinct(m.Keys, items);
    forall j | 0 <= j < |items|
      ensures HierarchyOf(m, lookup, hs[j])
    {
      MakeHierarchyOf(m, inv, lookup, items[j], boxLists[j]);
    }
  }

  /** Over a listing of its keys, `Sortable` asks the per-item sets one by one. */
  lemma SortableByItems(m: Index, items: seq<string>)
    requires multiset(items) == multiset(m.Keys)
    ensures (forall j :: 0 <= j < |items| ==> items[j] in m)
    ensures Sortable(m) <==> !Mixed(m.Keys) && forall j :: 0 <= j < |items| ==> !Mixed(m[items[j]])
  {
    SortedTokensDistinct(m.Keys, items);
  }

  /** The loop over sorted items. `order` is the iteration order of the index's
      keys; `sorted` is stable, so items with equal keys (such as "7" and "007")
      keep that order. A TypeError from any of the sorts aborts the loop. */
  method BuildHierarchies(m: Index, order: seq<string>, inv: Index, lookup: map<string, ModuleA.Details>)
    returns (r: Result<seq<Hierarchy>, Failure>)
    requires IsInverse(m, inv)
    requires forall x :: x in order <==> x in m
    requires forall i, j :: 0 <= i < j < |order| ==> order[i] != order[j]
    ensures r.Ok? <==> Sortable(m)
    ensures r.Err? ==> r.error == TypeError
    ensures r.Ok? ==> Pivoted(m, lookup, r.value)
    ensures r.Ok? ==> Items(r.value) == SortBy(order, TokenKey)
  {
    if Mixed(m.Keys) {
      return Err(TypeError);
    }
    var items := SortBy(order, TokenKey);
    DistinctListing(order, m.Keys);
    SortableByItems(m, items);
    var lists := SortBoxSets(m, items);
    if lists.Err? {
      return Err(TypeError);
    }
    MakeHierarchiesPivoted(m, inv, lookup, items, lists.value);
    return Ok(MakeHierarchies(items, lists.value, inv, lookup));
  }

  /** `create_packaging_list` from the posted modules to `itemHierarchies`.
      The weight loop runs first, so its exception wins over a sorting one;
      the handler answers either with HTTP 400. The items are the keys of
      `item_to_boxes` in their insertion order, stably sorted. */
  method CreatePackagingList(a: ModuleA.Input, b: ModuleB.Input) returns (r: Result<seq<Hierarchy>, Failure>)
    ensures r.Ok? <==> ModuleA.WeightLoop(a).None? && Sortable(ItemToBoxes(b))
    ensures ModuleA.WeightLoop(a).Some? ==> r == Err(ModuleA.WeightLoop(a).value)
    ensures ModuleA.WeightLoop(a).None? && r.Err? ==> r.error == TypeError
    ensures r.Ok? ==> Pivoted(ItemToBoxes(b), ModuleA.BoxLookup(a), r.value)
    ensures r.Ok? ==> Items(r.value) == SortBy(ItemOrder(b), TokenKey)
  {
    var w := ModuleA.WeightLoop(a);
    if w.Some? {
      return Err(w.value);
    }
    var m := ItemToBoxes(b);
    var inv := InvertIndex(m);
    var lookup := ModuleA.BoxLookup(a);
    r := BuildHierarchies(m, ItemOrder(b), inv, lookup);
  }

  /** Every box of a listed item appears in exactly one entry of its hierarchy. */
  lemma BoxesOncePerHierarchy(m: Index, lookup: map<string, ModuleA.Details>, h: Hierarchy, b: string)
    requires HierarchyOf(m, lookup, h)
    ensures b in m[h.item] <==> b in BoxNos(h)
    ensures multiset(BoxNos(h))[b] <= 1
  {
    assert b in BoxNos(h) <==> b in multiset(BoxNos(h));
  }
}

=== FILE: printview.dfy ===
/**
  The table of the packaging-list print view: the box count, the row order,
  the grouping of consecutive rows of one item (one `rowspan` cell per group)
  and the merging of a group's description cell.

  Input rows are the item records the view is built from, read as JSON objects.
 */
module PrintView {
  import opened Wrappers
  import opened Text
  import opened Fields
  import opened Ordering

  /** The stripped text of `itemNos`: empty when missing, "None" when null. */
  function ItemNos(d: Dict): string {
    Trim(StrOf(Get(d, "itemNos")))
  }

  /** The stripped text of `boxNos`: empty when missing, "None" when null. */
  function BoxNos(d: Dict): string {
    Trim(StrOf(Get(d, "boxNos")))
  }

  /** The stripped text of `description`: empty when missing, "None" when null. */
  function Description(d: Dict): string {
    Trim(StrOf(Get(d, "description")))
  }

  // ---------------------------------------------------------------------------
  // total_boxes

  /** The comma-separated parts of `boxNos`, a single empty part when it is
      missing, null or empty. */
  function BoxParts(d: Dict): seq<string> {
    Split(TextOf(Get(d, "boxNos")), ',')
  }

  /** The non-empty stripped comma-separated parts of one row's `boxNos`. */
  function RowBoxes(d: Dict): set<string> {
    set p | p in BoxParts(d) && Trim(p) != "" :: Trim(p)
  }

  /** `x` is in the set `f` gives for some element. */
  ghost predicate Covers<T>(items: seq<T>, f: T -> set<string>, x: string) {
    exists k :: 0 <= k < |items| && x in f(items[k])
  }

  /** Box `x` is one of the parts of some row. */
  ghost predicate NamesBox(items: seq<Dict>, x: string) {
    Covers(items, RowBoxes, x)
  }

  lemma CoversSnoc<T>(items: seq<T>, f: T -> set<string>, x: string)
    requires |items| > 0
    ensures Covers(items, f, x) <==> Covers(items[..|items| - 1], f, x) || x in f(items[|items| - 1])
  {
    var n := |items| - 1;
    var init := items[..n];
    if Covers(items, f, x) {
      var k :| 0 <= k < |items| && x in f(items[k]);
      if k < n {
        assert init[k] == items[k];
      }
    }
    if Covers(init, f, x) {
      var k :| 0 <= k < n && x in f(init[k]);
      assert init[k] == items[k];
    }
  }

  /** Only which elements there are matters, not their order or repetition. */
  lemma CoversSame<T>(a: seq<T>, b: seq<T>, f: T -> set<string>, x: string)
    requires forall d :: d in a <==> d in b
    ensures Covers(a, f, x) <==> Covers(b, f, x)
  {
    if Covers(a, f, x) {
      var k :| 0 <= k < |a| && x in f(a[k]);
      assert a[k] in b;
      var j :| 0 <= j < |b| && b[j] == a[k];
    }
    if Covers(b, f, x) {
      var k :| 0 <= k < |b| && x in f(b[k]);
      assert b[k] in a;
      var j :| 0 <= j < |a| && a[j] == b[k];
    }
  }

  lemma NamesBoxSnoc(items: seq<Dict>)
    requires |items| > 0
    ensures var n := |items| - 1;
            forall x :: NamesBox(items, x) <==> NamesBox(items[..n], x) || x in RowBoxes(items[n])
  {
    forall x {
      CoversSnoc(items, RowBoxes, x);
    }
  }

  /** `unique_boxes`, collected row by row. */
  function UniqueBoxes(items: seq<Dict>): (r: set<string>)
    ensures forall x :: x in r <==> NamesBox(items, x)
  {
    if |items| == 0 then {}
    else
      NamesBoxSnoc(items);
      UniqueBoxes(items[..|items| - 1]) + RowBoxes(items[|items| - 1])
  }

  /** `total_boxes`: the number of distinct box names. It is zero exactly
      when no row names a box. */
  function TotalBoxes(items: seq<Dict>): (n: nat)
    ensures n == 0 <==> forall k :: 0 <= k < |items| ==> RowBoxes(items[k]) == {}
  {
    NoBoxes(items);
    |UniqueBoxes(items)|
  }

  lemma NoBoxes(items: seq<Dict>)
    ensures UniqueBoxes(items) == {} <==> forall k :: 0 <= k < |items| ==> RowBoxes(items[k]) == {}
  {
    if UniqueBoxes(items) != {} {
      var x :| x in UniqueBoxes(items);
      var k :| 0 <= k < |items| && x in RowBoxes(items[k]);
    }
    if exists k :: 0 <= k < |items| && RowBoxes(items[k]) != {} {
      var k :| 0 <= k < |items| && RowBoxes(items[k]) != {};
      var x :| x in RowBoxes(items[k]);
      assert NamesBox(items, x);
    }
  }

  /** The count depends only on which rows there are: not on their order, nor
      on rows or box parts that repeat. */
  lemma TotalBoxesOrderFree(a: seq<Dict>, b: seq<Dict>)
    requires forall d :: d in a <==> d in b
    ensures TotalBoxes(a) == TotalBoxes(b)
  {
    forall x
      ensures NamesBox(a, x) <==> NamesBox(b, x)
    {
      CoversSame(a, b, RowBoxes, x);
    }
    assert UniqueBoxes(a) == UniqueBoxes(b);
  }

  // ---------------------------------------------------------------------------
  // Sorting

  /** `(_to_int_or_str(itemNos), _to_int_or_str(boxNos), description.strip())`. */
  function RowKey(d: Dict): Key {
    [AtomOf(ItemNos(d)), AtomOf(BoxNos(d)), Str(Description(d))]
  }

  /** `sorted(items_data, key=...)`: Python's stable sort, or a TypeError when
      two rows' keys meet an int against a str. */
  function SortItems(items: seq<Dict>): (r: Result<seq<Dict>, Failure>)
    ensures r.Ok? <==> AllComparable(items, RowKey)
    ensures r.Err? ==> r.error == TypeError
    ensures r.Ok? ==> multiset(r.value) == multiset(items) && Sorted(r.value, RowKey)
    ensures r.Ok? ==> forall k :: Filter(r.value, RowKey, k) == Filter(items, RowKey, k)
  {
    if AllComparable(items, RowKey) then
      SortStableAll(items, RowKey);
      Ok(SortBy(items, RowKey))
    else Err(TypeError)
  }

  // ---------------------------------------------------------------------------
  // Grouping

  /** One row of a group: what the template prints for one record. */
  datatype PrintRow = PrintRow(
    boxNos: string, description: string,
    qty: Field, l: Field, w: Field, h: Field,
    netWt: Field, grossWt: Field)

  /** `d.get(a) or d.get(b) or d.get(c, '')`. */
  function FirstOf(d: Dict, a: string, b: string, c: string): Field {
    Or(Get(d, a), Or(Get(d, b), GetOr(d, c, Text(""))))
  }

  function RowOf(d: Dict): PrintRow {
    PrintRow(
      BoxNos(d), Description(d),
      GetOr(d, "qty", Text("")), GetOr(d, "l", Text("")), GetOr(d, "w", Text("")), GetOr(d, "h", Text("")),
      FirstOf(d, "netWt", "netWeight", "net_weight"),
      FirstOf(d, "grossWt", "grossWeight", "gross_weight"))
  }

  datatype Group = Group(itemNos: string, rows: seq<PrintRow>, rowspan: nat)

  /** All rows of the groups, in order. */
  function Flatten(gs: seq<Group>): seq<PrintRow> {
    if |gs| == 0 then [] else Flatten(gs[..|gs| - 1]) + gs[|gs| - 1].rows
  }

  /** The group's `itemNos`, once per row. */
  function Rep(g: Group): (r: seq<string>)
    ensures |r| == |g.rows| && forall k :: 0 <= k < |r| ==> r[k] == g.itemNos
  {
    seq(|g.rows|, _ => g.itemNos)
  }

  /** Each group's `itemNos`, once per row of the group. */
  function Labels(gs: seq<Group>): seq<string> {
    if |gs| == 0 then [] else Labels(gs[..|gs| - 1]) + Rep(gs[|gs| - 1])
  }

  lemma FlattenSnoc(gs: seq<Group>, g: Group)
    ensures Flatten(gs + [g]) == Flatten(gs) + g.rows
    ensures Labels(gs + [g]) == Labels(gs) + Rep(g)
  {
    assert (gs + [g])[..|gs|] == gs;
  }

  function RowsOf(items: seq<Dict>): seq<PrintRow> {
    seq(|items|, k requires 0 <= k < |items| => RowOf(items[k]))
  }

  function ItemNosOf(items: seq<Dict>): seq<string> {
    seq(|items|, k requires 0 <= k < |items| => ItemNos(items[k]))
  }

  /** `gs` splits `items` into consecutive runs of equal `itemNos`, as long as
      possible: every group has rows and a rowspan counting them, neighbouring
      groups have different `itemNos`, the groups' rows are the items' rows in
      order, and each row sits in a group with its own `itemNos`. */
  ghost predicate GroupsOf(gs: seq<Group>, items: seq<Dict>) {
    (forall k :: 0 <= k < |gs| ==> |gs[k].rows| > 0 && gs[k].rowspan == |gs[k].rows|) &&
    (forall k :: 0 < k < |gs| ==> gs[k - 1].itemNos != gs[k].itemNos) &&
    Flatten(gs) == RowsOf(items) &&
    Labels(gs) == ItemNosOf(items)
  }

  /** One iteration of the grouping loop: extend the current group or open a new one. */
  function Step(gs: seq<Group>, d: Dict): seq<Group> {
    var row := RowOf(d);
    if |gs| > 0 && gs[|gs| - 1].itemNos == ItemNos(d) then
      var cur := gs[|gs| - 1];
      gs[..|gs| - 1] + [Group(cur.itemNos, cur.rows + [row], |cur.rows| + 1)]
    else gs + [Group(ItemNos(d), [row], 1)]
  }

  lemma RowsOfSnoc(items: seq<Dict>)
    requires |items| > 0
    ensures var n := |items| - 1;
            RowsOf(items) == RowsOf(items[..n]) + [RowOf(items[n])] &&
            ItemNosOf(items) == ItemNosOf(items[..n]) + [ItemNos(items[n])]
  {
    var n := |items| - 1;
    assert RowsOf(items) == RowsOf(items[..n]) + [RowOf(items[n])];
    assert ItemNosOf(items) == ItemNosOf(items[..n]) + [ItemNos(items[n])];
  }

  /** Replacing the last group by one with a further row. */
  lemma ExtendLast(prev: seq<Group>, row: PrintRow)
    requires |prev| > 0
    ensures var cur := prev[|prev| - 1];
            var gs := prev[..|prev| - 1] + [Group(cur.itemNos, cur.rows + [row], |cur.rows| + 1)];
            Flatten(gs) == Flatten(prev) + [row] && Labels(gs) == Labels(prev) + [cur.itemNos]
  {
    var cur := prev[|prev| - 1];
    var init := prev[..|prev| - 1];
    var next := Group(cur.itemNos, cur.rows + [row], |cur.rows| + 1);
    assert prev == init + [cur];
    FlattenSnoc(init, cur);
    FlattenSnoc(init, next);
    assert Rep(next) == Rep(cur) + [cur.itemNos];
  }

  /** A row with the current group's `itemNos` joins that group. */
  lemma StepExtends(prev: seq<Group>, items: seq<Dict>)
    requires |items| > 0 && |prev| > 0 && prev[|prev| - 1].itemNos == ItemNos(items[|items| - 1])
    requires GroupsOf(prev, items[..|items| - 1])
    ensures GroupsOf(Step(prev, items[|items| - 1]), items)
  {
    RowsOfSnoc(items);
    ExtendLast(prev, RowOf(items[|items| - 1]));
  }

  /** A row with another `itemNos` opens a new group. */
  lemma StepOpens(prev: seq<Group>, items: seq<Dict>)
    requires |items| > 0 && (|prev| == 0 || prev[|prev| - 1].itemNos != ItemNos(items[|items| - 1]))
    requires GroupsOf(prev, items[..|items| - 1])
    ensures GroupsOf(Step(prev, items[|items| - 1]), items)
  {
    var d := items[|items| - 1];
    RowsOfSnoc(items);
    FlattenSnoc(prev, Group(ItemNos(d), [RowOf(d)], 1));
  }

  /** One loop iteration keeps the grouping exact. */
  lemma StepGroups(prev: seq<Group>, items: seq<Dict>)
    requires |items| > 0
    requires GroupsOf(prev, items[..|items| - 1])
    ensures GroupsOf(Step(prev, items[|items| - 1]), items)
  {
    if |prev| > 0 && prev[|prev| - 1].itemNos == ItemNos(items[|items| - 1]) {
      StepExtends(prev, items);
    } else {
      StepOpens(prev, items);
    }
  }

  /** `grouped_items`, built by the loop over the sorted rows. */
  function GroupItems(items: seq<Dict>): (gs: seq<Group>)
    ensures GroupsOf(gs, items)
  {
    if |items| == 0 then []
    else
      var prev := GroupItems(items[..|items| - 1]);
      StepGroups(prev, items);
      Step(prev, items[|items| - 1])
  }

  lemma {:induction false} FlattenLength(gs: seq<Group>)
    ensures |Flatten(gs)| == |Labels(gs)|
  {
    if |gs| > 0 {
      FlattenLength(gs[..|gs| - 1]);
    }
  }

  /** The last group's `itemNos` covers the last rows of the labels. */
  lemma LabelsTail(gs: seq<Group>)
    requires |gs| > 0
    ensures var n, L := |gs[|gs| - 1].rows|, Labels(gs);
            |L| >= n && forall k :: |L| - n <= k < |L| ==> L[k] == gs[|gs| - 1].itemNos
  {
  }

  /** With several groups, the label just before the last group is the previous group's. */
  lemma LabelsBefore(gs: seq<Group>)
    requires |gs| > 1
    requires |gs[|gs| - 2].rows| > 0
    ensures var n, L := |gs[|gs| - 1].rows|, Labels(gs);
            |L| > n && L[|L| - n - 1] == gs[|gs| - 2].itemNos
  {
    var init := gs[..|gs| - 1];
    assert init[..|init| - 1] == gs[..|gs| - 2];
  }

  /** Dropping the last group leaves a grouping of the rows before it. */
  lemma GroupsInit(gs: seq<Group>, items: seq<Dict>)
    requires GroupsOf(gs, items) && |gs| > 0
    ensures var n := |gs[|gs| - 1].rows|;
            n <= |items| &&
            GroupsOf(gs[..|gs| - 1], items[..|items| - n]) &&
            gs[|gs| - 1].rows == RowsOf(items)[|items| - n..]
  {
    var init, last := gs[..|gs| - 1], gs[|gs| - 1];
    var N, n := |items|, |last.rows|;
    FlattenSnoc(init, last);
    assert gs == init + [last];
    FlattenLength(init);
    assert Flatten(init) == RowsOf(items)[..N - n];
    assert RowsOf(items)[..N - n] == RowsOf(items[..N - n]);
    assert Labels(init) == ItemNosOf(items)[..N - n];
    assert ItemNosOf(items)[..N - n] == ItemNosOf(items[..N - n]);
  }

  /** Two groupings of the same rows end with groups of the same size. */
  lemma LastGroupSize(g1: seq<Group>, g2: seq<Group>, items: seq<Dict>)
    requires GroupsOf(g1, items) && GroupsOf(g2, items)
    requires |g1| > 0 && |g2| > 0
    ensures |g1[|g1| - 1].rows| == |g2[|g2| - 1].rows|
    ensures g1[|g1| - 1].itemNos == g2[|g2| - 1].itemNos
  {
    var N := |items|;
    var a, b := g1[|g1| - 1], g2[|g2| - 1];
    var L := ItemNosOf(items);
    LabelsTail(g1);
    LabelsTail(g2);
    assert a.itemNos == L[N - 1] == b.itemNos;
    if |a.rows| < |b.rows| {
      LabelsBefore(g1);
    }
    if |b.rows| < |a.rows| {
      LabelsBefore(g2);
    }
  }

  /** There is only one way to cut the rows into maximal runs: `GroupItems`. */
  lemma {:induction false} GroupsUnique(g1: seq<Group>, g2: seq<Group>, items: seq<Dict>)
    requires GroupsOf(g1, items) && GroupsOf(g2, items)
    ensures g1 == g2
    decreases |items|
  {
    FlattenLength(g1);
    FlattenLength(g2);
    if |g1| > 0 && |g2| > 0 {
      var a, b := g1[|g1| - 1], g2[|g2| - 1];
      LastGroupSize(g1, g2, items);
      GroupsInit(g1, items);
      GroupsInit(g2, items);
      GroupsUnique(g1[..|g1| - 1], g2[..|g2| - 1], items[..|items| - |a.rows|]);
      assert g1 == g1[..|g1| - 1] + [a] && g2 == g2[..|g2| - 1] + [b];
    }
  }

  // ---------------------------------------------------------------------------
  // Merged description cells

  datatype ViewGroup = ViewGroup(
    itemNos: string, rows: seq<PrintRow>, rowspan: nat,
    descriptionMerged: bool, description: string, descriptionRowspan: nat)

  /** The second loop over `grouped_items`. */
  function Finish(g: Group): (v: ViewGroup)
    ensures v.itemNos == g.itemNos && v.rows == g.rows && v.rowspan == g.rowspan
    ensures v.descriptionMerged <==>
              |g.rows| > 0 && forall k :: 0 <= k < |g.rows| ==> Trim(g.rows[k].description) == Trim(g.rows[0].description)
    ensures v.description == if v.descriptionMerged then Trim(g.rows[0].description) else ""
    ensures v.descriptionRowspan == if v.descriptionMerged then g.rowspan else 1
  {
    var descriptions := seq(|g.rows|, k requires 0 <= k < |g.rows| => Trim(g.rows[k].description));
    var first := if |descriptions| > 0 then descriptions[0] else "";
    assert forall k :: 0 <= k < |descriptions| ==> descriptions[k] == Trim(g.rows[k].description);
    var merged := |descriptions| > 0 && forall k :: 0 <= k < |descriptions| ==> descriptions[k] == first;
    ViewGroup(g.itemNos, g.rows, g.rowspan, merged, if merged then first else "", if merged then g.rowspan else 1)
  }

  /** The description cell is merged exactly when the group's rows show one
      single description, which is then the text of the cell. */
  lemma MergedIffOneDescription(g: Group)
    requires |g.rows| > 0
    ensures var v := Finish(g);
            var ds := set r | r in g.rows :: Trim(r.description);
            v.descriptionMerged <==> |ds| == 1
  {
    var ds := set r | r in g.rows :: Trim(r.description);
    assert Trim(g.rows[0].description) in ds;
    if Finish(g).descriptionMerged {
      assert ds == {Trim(g.rows[0].description)} by {
        forall x | x in ds ensures x == Trim(g.rows[0].description) {
          var r :| r in g.rows && Trim(r.description) == x;
        }
      }
    } else {
      var k :| 0 <= k < |g.rows| && Trim(g.rows[k].description) != Trim(g.rows[0].description);
      var x, y := Trim(g.rows[0].description), Trim(g.rows[k].description);
      assert y in ds;
      var t := ds - {x};
      assert ds == t + {x};
      assert y in t;
    }
  }

  datatype View = View(groups: seq<ViewGroup>, totalBoxes: nat)

  function FinishAll(gs: seq<Group>): (vs: seq<ViewGroup>)
    ensures |vs| == |gs| && forall k :: 0 <= k < |gs| ==> vs[k] == Finish(gs[k])
  {
    seq(|gs|, k requires 0 <= k < |gs| => Finish(gs[k]))
  }

  /** The table part of `packaging_list_print`. */
  function PrintTable(items: seq<Dict>): (r: Result<View, Failure>)
    ensures r.Ok? <==> AllComparable(items, RowKey)
    ensures r.Ok? ==> r.value.totalBoxes == TotalBoxes(items)
    ensures r.Ok? ==> exists gs :: GroupsOf(gs, SortBy(items, RowKey)) && r.value.groups == FinishAll(gs)
  {
    match SortItems(items)
    case Err(e) => Err(e)
    case Ok(sorted) => Ok(View(FinishAll(GroupItems(sorted)), TotalBoxes(items)))
  }
}

=== FILE: text.dfy ===
/**
  The string primitives of Python's `str` that the helpers rely on, restricted
  to ASCII: `isdigit`, `isspace`, `strip`, `split`, `join`, `upper`, `int` of a
  digit string, `str` of a non-negative int, and `<` between two strings.
 */
module Text {

  // ---------------------------------------------------------------------------
  // Character classes

  predicate IsDigit(c: char) {
    '0' <= c <= '9'
  }

  /** ASCII characters for which `str.isspace` holds: tab..carriage return,
      the four information separators and the blank. */
  predicate IsSpace(c: char) {
    c == ' ' || (9 <= c as int <= 13) || (28 <= c as int <= 31)
  }

  /** `str.isdigit`: at least one character, and all of them digits. */
  predicate IsDigits(s: string) {
    |s| > 0 && forall k :: 0 <= k < |s| ==> IsDigit(s[k])
  }

  predicate AllSpace(s: string) {
    forall k :: 0 <= k < |s| ==> IsSpace(s[k])
  }

  lemma AllSpaceConcat(a: string, b: string)
    requires AllSpace(a) && AllSpace(b)
    ensures AllSpace(a + b)
  {
    forall k | 0 <= k < |a + b|
      ensures IsSpace((a + b)[k])
    {
      if k < |a| {
        assert (a + b)[k] == a[k];
      } else {
        assert (a + b)[k] == b[k - |a|];
      }
    }
  }

  /** A character outside a class does not occur in a string of that class. */
  lemma DigitsExclude(s: string, c: char)
    requires forall k :: 0 <= k < |s| ==> IsDigit(s[k])
    requires !IsDigit(c)
    ensures c !in s
  {
    forall k | 0 <= k < |s|
      ensures s[k] != c
    {
      assert IsDigit(s[k]);
    }
  }

  lemma SpacesExclude(s: string, c: char)
    requires AllSpace(s)
    requires !IsSpace(c)
    ensures c !in s
  {
    forall k | 0 <= k < |s|
      ensures s[k] != c
    {
      assert IsSpace(s[k]);
    }
  }

  // ---------------------------------------------------------------------------
  // strip

  function TrimStart(s: string): string
    decreases |s|
  {
    if |s| > 0 && IsSpace(s[0]) then TrimStart(s[1..]) else s
  }

  function TrimEnd(s: string): string
    decreases |s|
  {
    if |s| > 0 && IsSpace(s[|s| - 1]) then TrimEnd(s[..|s| - 1]) else s
  }

  /** `lstrip` drops a whitespace prefix and stops at the first other character. */
  lemma {:induction false} TrimStartFacts(s: string)
    ensures var r := TrimStart(s);
            |r| <= |s| && r == s[|s| - |r|..] && AllSpace(s[..|s| - |r|])
            && (|r| > 0 ==> !IsSpace(r[0]))
    decreases |s|
  {
    if |s| > 0 && IsSpace(s[0]) {
      TrimStartFacts(s[1..]);
      var r := TrimStart(s);
      assert s[..|s| - |r|] == [s[0]] + s[1..][..|s| - 1 - |r|];
      AllSpaceConcat([s[0]], s[1..][..|s| - 1 - |r|]);
    }
  }

  /** `rstrip` drops a whitespace suffix and stops at the last other character. */
  lemma {:induction false} TrimEndFacts(s: string)
    ensures var r := TrimEnd(s);
            |r| <= |s| && r == s[..|r|] && AllSpace(s[|r|..])
            && (|r| > 0 ==> !IsSpace(r[|r| - 1]))
    decreases |s|
  {
    if |s| > 0 && IsSpace(s[|s| - 1]) {
      TrimEndFacts(s[..|s| - 1]);
      var r := TrimEnd(s);
      assert s[|r|..] == s[..|s| - 1][|r|..] + [s[|s| - 1]];
      AllSpaceConcat(s[..|s| - 1][|r|..], [s[|s| - 1]]);
    }
  }

  /** `str.strip()`: the input without its leading and trailing whitespace. */
  function Trim(s: string): (r: string)
    ensures |r| > 0 ==> !IsSpace(r[0]) && !IsSpace(r[|r| - 1])
  {
    TrimStartFacts(s);
    TrimEndFacts(TrimStart(s));
    TrimEnd(TrimStart(s))
  }

  /** `strip` removes a whitespace prefix and a whitespace suffix, nothing more. */
  lemma TrimParts(s: string) returns (pre: string, post: string)
    ensures s == pre + Trim(s) + post
    ensures AllSpace(pre) && AllSpace(post)
  {
    var t := TrimStart(s);
    TrimStartFacts(s);
    TrimEndFacts(t);
    pre := s[..|s| - |t|];
    post := t[|TrimEnd(t)|..];
    assert t == TrimEnd(t) + post;
  }

  /** Only an all-whitespace string strips to nothing. */
  lemma TrimEmpty(s: string)
    ensures Trim(s) == [] <==> AllSpace(s)
  {
    var pre, post := TrimParts(s);
    if Trim(s) == [] {
      assert s == pre + post;
      AllSpaceConcat(pre, post);
    } else {
      assert s[|pre|] == Trim(s)[0];
    }
  }

  /** A string with no whitespace at either end is its own strip. */
  lemma TrimFixed(s: string)
    requires |s| > 0 ==> !IsSpace(s[0]) && !IsSpace(s[|s| - 1])
    ensures Trim(s) == s
  {
    assert TrimStart(s) == s;
  }

  lemma TrimIdempotent(s: string)
    ensures Trim(Trim(s)) == Trim(s)
  {
    TrimFixed(Trim(s));
  }

  /** Whitespace around a string does not change its strip. */
  lemma {:induction false} TrimPadded(pre: string, s: string, post: string)
    requires AllSpace(pre) && AllSpace(post)
    ensures Trim(pre + s + post) == Trim(s)
  {
    var p, q := TrimParts(s);
    var m := Trim(s);
    assert pre + s + post == (pre + p) + m + (q + post);
    AllSpaceConcat(pre, p);
    AllSpaceConcat(q, post);
    TrimOfPaddedCore(pre + p, m, q + post);
  }

  lemma {:induction false} TrimOfPaddedCore(pre: string, m: string, post: string)
    requires AllSpace(pre) && AllSpace(post)
    requires |m| > 0 ==> !IsSpace(m[0]) && !IsSpace(m[|m| - 1])
    ensures Trim(pre + m + post) == m
    decreases |pre| + |post|
  {
    var s := pre + m + post;
    if |pre| > 0 {
      assert s[1..] == pre[1..] + m + post;
      assert TrimStart(s) == TrimStart(s[1..]);
      TrimOfPaddedCore(pre[1..], m, post);
    } else if |m| == 0 {
      assert s == post;
      TrimEmpty(s);
    } else {
      assert s == m + post;
      assert TrimStart(s) == s;
      TrimEndPadded(m, post);
    }
  }

  lemma {:induction false} TrimEndPadded(m: string, post: string)
    requires AllSpace(post)
    requires |m| > 0 && !IsSpace(m[|m| - 1])
    ensures TrimEnd(m + post) == m
    decreases |post|
  {
    if |post| > 0 {
      var s := m + post;
      assert s[..|s| - 1] == m + post[..|post| - 1];
      TrimEndPadded(m, post[..|post| - 1]);
    } else {
      assert m + post == m;
    }
  }

  // ---------------------------------------------------------------------------
  // split and join

  /** `s.split(sep)`: the pieces between separators, at least one of them. */
  function Split(s: string, sep: char): (r: seq<string>)
    ensures |r| > 0
    decreases |s|
  {
    if |s| == 0 then [""]
    else
      var rest := Split(s[1..], sep);
      if s[0] == sep then [""] + rest
      else [[s[0]] + rest[0]] + rest[1..]
  }

  /** No piece contains the separator. */
  lemma {:induction false} SplitPiecesFree(s: string, sep: char)
    ensures forall k :: 0 <= k < |Split(s, sep)| ==> sep !in Split(s, sep)[k]
    decreases |s|
  {
    if |s| > 0 {
      SplitPiecesFree(s[1..], sep);
      var rest := Split(s[1..], sep);
      if s[0] != sep {
        var r := Split(s, sep);
        assert r == [[s[0]] + rest[0]] + rest[1..];
        forall k | 0 <= k < |r|
          ensures sep !in r[k]
        {
          if k == 0 {
            assert sep !in rest[0];
            assert r[0] == [s[0]] + rest[0];
          } else {
            assert r[k] == rest[k];
          }
        }
      }
    }
  }

  /** Joining the pieces with the separator gives the string back. */
  lemma {:induction false} JoinSplit(s: string, sep: char)
    ensures Join(Split(s, sep), sep) == s
    decreases |s|
  {
    if |s| > 0 {
      JoinSplit(s[1..], sep);
      var rest := Split(s[1..], sep);
      if s[0] == sep {
        JoinCons("", rest, sep);
      } else {
        JoinCons(rest[0], rest[1..], sep);
        JoinCons([s[0]] + rest[0], rest[1..], sep);
        assert rest == [rest[0]] + rest[1..];
      }
    }
  }

  /** `sep.join(ws)`. */
  function Join(ws: seq<string>, sep: char): string
  {
    if |ws| == 0 then ""
    else if |ws| == 1 then ws[0]
    else ws[0] + [sep] + Join(ws[1..], sep)
  }

  lemma JoinCons(w: string, ws: seq<string>, sep: char)
    ensures Join([w] + ws, sep) == if |ws| == 0 then w else w + [sep] + Join(ws, sep)
  {
    assert ([w] + ws)[1..] == ws;
  }

  /** Joining two non-empty lists is joining each and putting one separator
      between them. */
  lemma {:induction false} JoinAppend(a: seq<string>, b: seq<string>, sep: char)
    requires |a| > 0 && |b| > 0
    ensures Join(a + b, sep) == Join(a, sep) + [sep] + Join(b, sep)
  {
    assert a + b == [a[0]] + (a[1..] + b);
    JoinCons(a[0], a[1..] + b, sep);
    if |a| > 1 {
      JoinAppend(a[1..], b, sep);
      assert a == [a[0]] + a[1..];
      JoinCons(a[0], a[1..], sep);
    }
  }

  lemma JoinSnoc(ws: seq<string>, w: string, sep: char)
    requires |ws| > 0
    ensures Join(ws + [w], sep) == Join(ws, sep) + ([sep] + w)
  {
    JoinAppend(ws, [w], sep);
  }

  /** Joining and then splitting with the same separator is the identity,
      so long as no piece contains the separator. */
  lemma {:induction false} SplitJoin(ws: seq<string>, sep: char)
    requires |ws| > 0
    requires forall k :: 0 <= k < |ws| ==> sep !in ws[k]
    ensures Split(Join(ws, sep), sep) == ws
  {
    SplitPlain(ws[0], sep);
    if |ws| > 1 {
      SplitJoin(ws[1..], sep);
      SplitAppend(ws[0], Join(ws[1..], sep), sep);
      assert ws == [ws[0]] + ws[1..];
    }
  }

  lemma {:induction false} SplitPlain(w: string, sep: char)
    requires sep !in w
    ensures Split(w, sep) == [w]
    decreases |w|
  {
    if |w| > 0 {
      SplitPlain(w[1..], sep);
      assert [w[0]] + w[1..] == w;
    }
  }

  /** Splitting distributes over a separator. */
  lemma {:induction false} SplitAppend(a: string, b: string, sep: char)
    ensures Split(a + [sep] + b, sep) == Split(a, sep) + Split(b, sep)
    decreases |a|
  {
    var s := a + [sep] + b;
    if |a| == 0 {
      assert s[1..] == b;
    } else {
      SplitAppend(a[1..], b, sep);
      assert a == [a[0]] + a[1..];
      SplitAppendStep(a[0], a[1..], b, sep);
    }
  }

  /** The inductive step of `SplitAppend`: one more leading character. */
  lemma SplitAppendStep(c: char, t: string, b: string, sep: char)
    requires Split(t + [sep] + b, sep) == Split(t, sep) + Split(b, sep)
    ensures Split([c] + t + [sep] + b, sep) == Split([c] + t, sep) + Split(b, sep)
  {
    var x := t + [sep] + b;
    assert [c] + t + [sep] + b == [c] + x;
    SplitConsPiece(c, x, sep);
    SplitConsPiece(c, t, sep);
    ConsPieceAppend(c, Split(t, sep), Split(b, sep), sep);
  }

  /** How a leading character changes the pieces `r` of the rest. */
  function ConsPiece(c: char, r: seq<string>, sep: char): seq<string>
    requires |r| > 0
  {
    if c == sep then [""] + r else [[c] + r[0]] + r[1..]
  }

  lemma SplitConsPiece(c: char, t: string, sep: char)
    ensures Split([c] + t, sep) == ConsPiece(c, Split(t, sep), sep)
  {
    assert ([c] + t)[1..] == t;
  }

  lemma ConsPieceAppend(c: char, p: seq<string>, q: seq<string>, sep: char)
    requires |p| > 0
    ensures ConsPiece(c, p + q, sep) == ConsPiece(c, p, sep) + q
  {
    if c != sep {
      assert (p + q)[1..] == p[1..] + q;
    }
  }

  /** A prefix free of the separator joins the first piece. */
  lemma {:induction false} SplitPrefix(w: string, s: string, sep: char)
    requires sep !in w
    ensures Split(w + s, sep) == [w + Split(s, sep)[0]] + Split(s, sep)[1..]
    decreases |w|
  {
    if |w| > 0 {
      assert (w + s)[1..] == w[1..] + s;
      SplitPrefix(w[1..], s, sep);
      assert [w[0]] + (w[1..] + Split(s, sep)[0]) == w + Split(s, sep)[0];
    } else {
      var p := Split(s, sep);
      assert w + s == s;
      assert w + p[0] == p[0];
      assert [p[0]] + p[1..] == p;
    }
  }

  /** One step of `Split`, stated for a string with a known first character. */
  lemma SplitCons(c: char, t: string, sep: char)
    ensures Split([c] + t, sep) ==
            if c == sep then [""] + Split(t, sep)
            else [[c] + Split(t, sep)[0]] + Split(t, sep)[1..]
  {
    assert ([c] + t)[1..] == t;
  }

  /** Appending `w` to the last piece commutes with growing the first piece. */
  lemma GrowFirstThenLast(c: char, p: seq<string>, w: string)
    requires |p| > 0
    ensures var rest := p[..|p| - 1] + [p[|p| - 1] + w];
            var q := [[c] + p[0]] + p[1..];
            [[c] + rest[0]] + rest[1..] == q[..|q| - 1] + [q[|q| - 1] + w]
  {
    var n := |p|;
    if n == 1 {
      assert [c] + (p[0] + w) == ([c] + p[0]) + w;
    }
  }

  /** A suffix free of the separator joins the last piece. */
  lemma {:induction false} SplitSuffix(s: string, w: string, sep: char)
    requires sep !in w
    ensures var p := Split(s, sep);
            Split(s + w, sep) == p[..|p| - 1] + [p[|p| - 1] + w]
    decreases |s|
  {
    if |s| == 0 {
      assert s + w == w;
      SplitPlain(w, sep);
    } else {
      var t := s[1..];
      assert s == [s[0]] + t;
      assert s + w == [s[0]] + (t + w);
      SplitSuffix(t, w, sep);
      SplitCons(s[0], t, sep);
      SplitCons(s[0], t + w, sep);
      if s[0] != sep {
        GrowFirstThenLast(s[0], Split(t, sep), w);
      }
    }
  }

  /** `t.split(sep, 1)` when `sep in t`: the text before and after the first separator. */
  function SplitOnce(t: string, sep: char): (r: (string, string))
    requires sep in t
    ensures sep !in r.0
    ensures t == r.0 + [sep] + r.1
    decreases |t|
  {
    if t[0] == sep then ("", t[1..])
    else
      var (a, b) := SplitOnce(t[1..], sep);
      ([t[0]] + a, b)
  }

  /** The first separator of `a + [sep] + b` is the one shown when `a` has none. */
  lemma {:induction false} SplitOnceAt(a: string, b: string, sep: char)
    requires sep !in a
    ensures SplitOnce(a + [sep] + b, sep) == (a, b)
    decreases |a|
  {
    var t := a + [sep] + b;
    if |a| > 0 {
      assert t[0] == a[0] != sep;
      assert t[1..] == a[1..] + [sep] + b;
      SplitOnceAt(a[1..], b, sep);
      assert [a[0]] + a[1..] == a;
    } else {
      assert t[1..] == b;
    }
  }

  // ---------------------------------------------------------------------------
  // upper

  function UpperChar(c: char): char {
    if 'a' <= c <= 'z' then (c as int - 32) as char else c
  }

  /** `str.upper()` on ASCII letters. */
  function Upper(s: string): (r: string)
    ensures |r| == |s|
    ensures forall k :: 0 <= k < |s| ==> r[k] == UpperChar(s[k])
  {
    seq(|s|, k requires 0 <= k < |s| => UpperChar(s[k]))
  }

  // ---------------------------------------------------------------------------
  // int(s) and str(n)

  function DigitValue(c: char): nat
    requires IsDigit(c)
  {
    c as int - '0' as int
  }

  function DigitChar(d: nat): (c: char)
    requires d < 10
    ensures IsDigit(c) && DigitValue(c) == d
  {
    ('0' as int + d) as char
  }

  /** `int(s)` for a string of ASCII digits (leading zeros allowed). */
  function Value(s: string): nat
    requires forall k :: 0 <= k < |s| ==> IsDigit(s[k])
  {
    if |s| == 0 then 0 else Value(s[..|s| - 1]) * 10 + DigitValue(s[|s| - 1])
  }

  /** `str(n)` for a non-negative int: decimal digits without leading zeros. */
  function ShowNat(n: nat): (r: string)
    ensures IsDigits(r)
    ensures |r| > 1 ==> r[0] != '0'
    decreases n
  {
    if n < 10 then [DigitChar(n)] else ShowNat(n / 10) + [DigitChar(n % 10)]
  }

  /** `int(str(n)) == n`. */
  lemma {:induction false} ValueShowNat(n: nat)
    ensures Value(ShowNat(n)) == n
    decreases n
  {
    if n >= 10 {
      ValueShowNat(n / 10);
      var s := ShowNat(n);
      assert s[..|s| - 1] == ShowNat(n / 10);
    }
  }

  lemma ShowNatInjective(m: nat, n: nat)
    requires ShowNat(m) == ShowNat(n)
    ensures m == n
  {
    ValueShowNat(m);
    ValueShowNat(n);
  }

  // ---------------------------------------------------------------------------
  // Python's `<` on str: lexicographic by code point

  predicate LexLess(a: string, b: string) {
    if |a| == 0 then |b| > 0
    else if |b| == 0 then false
    else if a[0] != b[0] then a[0] < b[0]
    else LexLess(a[1..], b[1..])
  }

  lemma LexLessIrreflexive(a: string)
    ensures !LexLess(a, a)
  {
  }

  lemma {:induction false} LexLessTransitive(a: string, b: string, c: string)
    requires LexLess(a, b) && LexLess(b, c)
    ensures LexLess(a, c)
    decreases |a|
  {
    if |a| > 0 && a[0] == b[0] && b[0] == c[0] {
      LexLessTransitive(a[1..], b[1..], c[1..]);
    }
  }

  lemma {:induction false} LexLessTotal(a: string, b: string)
    requires a != b
    ensures LexLess(a, b) || LexLess(b, a)
    decreases |a|
  {
    if |a| > 0 && |b| > 0 && a[0] == b[0] {
      assert a == [a[0]] + a[1..] && b == [b[0]] + b[1..];
      LexLessTotal(a[1..], b[1..]);
    }
  }
}

=== FILE: tokens.dfy ===
/**
  The box/item reference parser `_parse_tokens` of `create_packaging_list`.

  A field such as `"A, 2, 1-3"` is stripped and split on commas; every piece is
  stripped, empty pieces are dropped, a piece `a-b` whose two sides (around the
  first hyphen) are digit strings becomes `str(n)` for every n from min(a, b) to
  max(a, b), and any other piece is kept as written.
 */
module Tokens {
  import opened Text

  // ---------------------------------------------------------------------------
  // One piece

  /** The stripped text before the first hyphen of `t`. */
  function Left(t: string): string
    requires '-' in t
  {
    Trim(SplitOnce(t, '-').0)
  }

  /** The stripped text after the first hyphen of `t`. */
  function Right(t: string): string
    requires '-' in t
  {
    Trim(SplitOnce(t, '-').1)
  }

  /** `t.split('-', 1)` has two digit-string sides. */
  predicate IsRange(t: string) {
    '-' in t && IsDigits(Left(t)) && IsDigits(Right(t))
  }

  function Min(a: nat, b: nat): nat { if a <= b then a else b }
  function Max(a: nat, b: nat): nat { if a <= b then b else a }

  /** `[str(n) for n in range(lo, hi + 1)]`. */
  function Span(lo: nat, hi: nat): (r: seq<string>)
    ensures |r| == if lo <= hi then hi - lo + 1 else 0
    ensures forall k :: 0 <= k < |r| ==> r[k] == ShowNat(lo + k)
    decreases hi + 1 - lo
  {
    if lo > hi then [] else [ShowNat(lo)] + Span(lo + 1, hi)
  }

  /** What one comma-separated piece contributes to the output. */
  function PieceTokens(piece: string): seq<string>
  {
    var t := Trim(piece);
    if t == [] then []
    else if IsRange(t) then
      var a := Value(Left(t));
      var b := Value(Right(t));
      Span(Min(a, b), Max(a, b))
    else [t]
  }

  function ExpandPieces(pieces: seq<string>): seq<string>
  {
    if |pieces| == 0 then [] else PieceTokens(pieces[0]) + ExpandPieces(pieces[1..])
  }

  /** A token `_parse_tokens` can emit: non-empty, stripped, comma-free and not
      itself a range, so parsing it again gives it back unchanged. */
  predicate IsToken(t: string) {
    |t| > 0 && ',' !in t && !IsSpace(t[0]) && !IsSpace(t[|t| - 1]) && !IsRange(t)
  }

  /** `_parse_tokens(v)` for the text `str(v or '')`. */
  function ParseTokens(v: string): (r: seq<string>)
    ensures AllSpace(v) ==> r == []
  {
    var raw := Trim(v);
    TrimEmpty(v);
    if raw == [] then [] else ExpandPieces(Split(raw, ','))
  }

  // ---------------------------------------------------------------------------
  // Every emitted token is a fixed point

  lemma ShowNatIsToken(n: nat)
    ensures IsToken(ShowNat(n))
    ensures PieceTokens(ShowNat(n)) == [ShowNat(n)]
  {
    var s := ShowNat(n);
    assert !IsSpace(s[0]) && !IsSpace(s[|s| - 1]);
    TrimFixed(s);
    DigitsExclude(s, '-');
    DigitsExclude(s, ',');
  }

  /** Every element is a token. */
  predicate AllTokens(s: seq<string>) {
    forall k :: 0 <= k < |s| ==> IsToken(s[k])
  }

  lemma AllTokensConcat(a: seq<string>, b: seq<string>)
    requires AllTokens(a) && AllTokens(b)
    ensures AllTokens(a + b)
  {
    forall k | 0 <= k < |a + b|
      ensures IsToken((a + b)[k])
    {
      if k < |a| { assert (a + b)[k] == a[k]; } else { assert (a + b)[k] == b[k - |a|]; }
    }
  }

  /** Each token a piece contributes is a fixed point of parsing. */
  lemma PieceTokensAreTokens(piece: string)
    requires ',' !in piece
    ensures AllTokens(PieceTokens(piece))
  {
    var t := Trim(piece);
    var r := PieceTokens(piece);
    if t != [] && IsRange(t) {
      forall k | 0 <= k < |r|
        ensures IsToken(r[k])
      {
        ShowNatIsToken(Min(Value(Left(t)), Value(Right(t))) + k);
      }
    } else if t != [] {
      TrimIdempotent(piece);
      var pre, post := TrimParts(piece);
      forall k | 0 <= k < |t|
        ensures t[k] != ','
      {
        assert t[k] == piece[|pre| + k];
      }
    }
  }

  lemma {:induction false} ExpandPiecesTokens(pieces: seq<string>)
    requires forall k :: 0 <= k < |pieces| ==> ',' !in pieces[k]
    ensures AllTokens(ExpandPieces(pieces))
  {
    if |pieces| > 0 {
      PieceTokensAreTokens(pieces[0]);
      ExpandPiecesTokens(pieces[1..]);
      AllTokensConcat(PieceTokens(pieces[0]), ExpandPieces(pieces[1..]));
    }
  }

  /** Every emitted token is non-empty, stripped, comma-free and not a range. */
  lemma ParseTokensAreTokens(v: string)
    ensures AllTokens(ParseTokens(v))
  {
    var raw := Trim(v);
    if raw != [] {
      SplitPiecesFree(raw, ',');
      ExpandPiecesTokens(Split(raw, ','));
    }
  }

  lemma TokenIsFixedPoint(t: string)
    requires IsToken(t)
    ensures PieceTokens(t) == [t]
  {
    TrimFixed(t);
  }

  // ---------------------------------------------------------------------------
  // Structure of the output

  lemma {:induction false} ExpandAppend(a: seq<string>, b: seq<string>)
    ensures ExpandPieces(a + b) == ExpandPieces(a) + ExpandPieces(b)
  {
    if |a| > 0 {
      assert (a + b)[1..] == a[1..] + b;
      ExpandAppend(a[1..], b);
    } else {
      assert a + b == b;
    }
  }

  lemma {:induction false} ExpandAllSpace(pieces: seq<string>)
    requires forall k :: 0 <= k < |pieces| ==> AllSpace(pieces[k])
    ensures ExpandPieces(pieces) == []
  {
    if |pieces| > 0 {
      TrimEmpty(pieces[0]);
      ExpandAllSpace(pieces[1..]);
    }
  }

  lemma {:induction false} SplitAllSpace(v: string)
    requires AllSpace(v)
    ensures forall k :: 0 <= k < |Split(v, ',')| ==> AllSpace(Split(v, ',')[k])
    decreases |v|
  {
    if |v| > 0 {
      SplitAllSpace(v[1..]);
      var rest := Split(v[1..], ',');
      assert v[0] != ',';
      var r := Split(v, ',');
      assert r == [[v[0]] + rest[0]] + rest[1..];
      forall k | 0 <= k < |r|
        ensures AllSpace(r[k])
      {
        if k == 0 {
          AllSpaceConcat([v[0]], rest[0]);
        } else {
          assert r[k] == rest[k];
        }
      }
    }
  }

  /** The pieces of `pre + raw + post` when the padding holds no comma: the
      first piece gains `pre` and the last gains `post`. */
  function Padded(pre: string, p: seq<string>, post: string): seq<string>
    requires |p| > 0
  {
    if |p| == 1 then [pre + p[0] + post]
    else [pre + p[0]] + p[1..|p| - 1] + [p[|p| - 1] + post]
  }

  lemma SplitPadded(pre: string, raw: string, post: string)
    requires ',' !in pre && ',' !in post
    ensures Split(pre + raw + post, ',') == Padded(pre, Split(raw, ','), post)
  {
    SplitSuffix(raw, post, ',');
    SplitPrefix(pre, raw + post, ',');
    assert pre + raw + post == pre + (raw + post);
    PadPieces(pre, Split(raw, ','), post);
  }

  /** Growing the last piece, then the first, gives the padded pieces. */
  lemma PadPieces(pre: string, p: seq<string>, post: string)
    requires |p| > 0
    ensures var q := p[..|p| - 1] + [p[|p| - 1] + post];
            [pre + q[0]] + q[1..] == Padded(pre, p, post)
  {
    var n := |p|;
    var q := p[..n - 1] + [p[n - 1] + post];
    if n == 1 {
      assert q == [p[0] + post];
      assert pre + (p[0] + post) == pre + p[0] + post;
    } else {
      assert q[0] == p[0];
      assert q[1..] == p[1..n - 1] + [p[n - 1] + post];
    }
  }

  lemma PieceIgnoresPadding(pre: string, piece: string, post: string)
    requires AllSpace(pre) && AllSpace(post)
    ensures PieceTokens(pre + piece + post) == PieceTokens(piece)
  {
    TrimPadded(pre, piece, post);
  }

  lemma ExpandSingle(piece: string)
    ensures ExpandPieces([piece]) == PieceTokens(piece)
  {
    assert ExpandPieces([piece]) == PieceTokens(piece) + ExpandPieces([]);
  }

  lemma ExpandReplaceFirst(x: string, y: string, rest: seq<string>)
    requires PieceTokens(x) == PieceTokens(y)
    ensures ExpandPieces([x] + rest) == ExpandPieces([y] + rest)
  {
    assert ([x] + rest)[1..] == rest;
    assert ([y] + rest)[1..] == rest;
  }

  lemma ExpandReplaceLast(init: seq<string>, x: string, y: string)
    requires PieceTokens(x) == PieceTokens(y)
    ensures ExpandPieces(init + [x]) == ExpandPieces(init + [y])
  {
    ExpandAppend(init, [x]);
    ExpandAppend(init, [y]);
    ExpandSingle(x);
    ExpandSingle(y);
  }

  lemma Ends<T>(p: seq<T>)
    requires |p| >= 2
    ensures p == [p[0]] + p[1..|p| - 1] + [p[|p| - 1]]
  {
  }

  lemma ExpandPaddedOne(pre: string, piece: string, post: string)
    requires AllSpace(pre) && AllSpace(post)
    ensures ExpandPieces([pre + piece + post]) == ExpandPieces([piece])
  {
    PieceIgnoresPadding(pre, piece, post);
    ExpandSingle(pre + piece + post);
    ExpandSingle(piece);
  }

  lemma PadFirst(pre: string, first: string, rest: seq<string>)
    requires AllSpace(pre)
    ensures ExpandPieces([pre + first] + rest) == ExpandPieces([first] + rest)
  {
    assert pre + first == pre + first + "";
    PieceIgnoresPadding(pre, first, "");
    ExpandReplaceFirst(pre + first, first, rest);
  }

  lemma PadLast(init: seq<string>, last: string, post: string)
    requires AllSpace(post)
    ensures ExpandPieces(init + [last + post]) == ExpandPieces(init + [last])
  {
    assert last + post == "" + last + post;
    PieceIgnoresPadding("", last, post);
    ExpandReplaceLast(init, last + post, last);
  }

  lemma ExpandPaddedMany(pre: string, first: string, mid: seq<string>, last: string, post: string)
    requires AllSpace(pre) && AllSpace(post)
    ensures ExpandPieces([pre + first] + mid + [last + post]) == ExpandPieces([first] + mid + [last])
  {
    PadFirst(pre, first, mid + [last + post]);
    assert [pre + first] + mid + [last + post] == [pre + first] + (mid + [last + post]);
    assert [first] + (mid + [last + post]) == ([first] + mid) + [last + post];
    PadLast([first] + mid, last, post);
  }

  lemma ExpandPadded(pre: string, p: seq<string>, post: string)
    requires AllSpace(pre) && AllSpace(post) && |p| > 0
    ensures ExpandPieces(Padded(pre, p, post)) == ExpandPieces(p)
  {
    var n := |p|;
    if n == 1 {
      ExpandPaddedOne(pre, p[0], post);
      assert p == [p[0]];
    } else {
      Ends(p);
      ExpandPaddedMany(pre, p[0], p[1..n - 1], p[n - 1], post);
    }
  }

  /** The initial `strip()` of the whole field changes nothing: every piece is
      stripped again, so the output depends only on the comma-separated pieces. */
  lemma ParseIgnoresOuterStrip(v: string)
    ensures ParseTokens(v) == ExpandPieces(Split(v, ','))
  {
    var raw := Trim(v);
    TrimEmpty(v);
    if raw == [] {
      SplitAllSpace(v);
      ExpandAllSpace(Split(v, ','));
    } else {
      var pre, post := TrimParts(v);
      SpacesExclude(pre, ',');
      SpacesExclude(post, ',');
      SplitPadded(pre, raw, post);
      ExpandPadded(pre, Split(raw, ','), post);
    }
  }

  /** Output order follows the order of the pieces: parsing `a,b` is parsing
      `a` followed by parsing `b` (duplicates are kept). */
  lemma ParseConcat(a: string, b: string)
    ensures ParseTokens(a + "," + b) == ParseTokens(a) + ParseTokens(b)
  {
    ParseIgnoresOuterStrip(a + "," + b);
    ParseIgnoresOuterStrip(a);
    ParseIgnoresOuterStrip(b);
    SplitAppend(a, b, ',');
    ExpandAppend(Split(a, ','), Split(b, ','));
  }

  lemma {:induction false} ExpandTokens(ts: seq<string>)
    requires forall k :: 0 <= k < |ts| ==> IsToken(ts[k])
    ensures ExpandPieces(ts) == ts
  {
    if |ts| > 0 {
      var rest := ts[1..];
      forall k | 0 <= k < |rest|
        ensures IsToken(rest[k])
      {
        assert rest[k] == ts[k + 1];
      }
      ExpandTokens(rest);
      TokenIsFixedPoint(ts[0]);
      assert ExpandPieces(ts) == [ts[0]] + ts[1..];
    }
  }

  /** Parsing is a normal form: re-parsing the comma-joined output gives the
      same output. */
  lemma ParseIdempotent(v: string)
    ensures ParseTokens(Join(ParseTokens(v), ',')) == ParseTokens(v)
  {
    var ts := ParseTokens(v);
    ParseTokensAreTokens(v);
    if |ts| > 0 {
      ParseIgnoresOuterStrip(Join(ts, ','));
      SplitJoin(ts, ',');
      ExpandTokens(ts);
    }
  }

  // ---------------------------------------------------------------------------
  // Ranges

  lemma DigitsHaveNoHyphen(x: string)
    requires IsDigits(x)
    ensures '-' !in x && Trim(x) == x
  {
    assert !IsSpace(x[0]) && !IsSpace(x[|x| - 1]);
    TrimFixed(x);
    DigitsExclude(x, '-');
  }

  lemma {:induction false} RangeIsOnePiece(x: string, y: string)
    requires IsDigits(x) && IsDigits(y)
    ensures ParseTokens(x + "-" + y) == PieceTokens(x + "-" + y)
    ensures IsRange(x + "-" + y)
    ensures Left(x + "-" + y) == x && Right(x + "-" + y) == y
  {
    var t := x + "-" + y;
    DigitsHaveNoHyphen(x);
    DigitsHaveNoHyphen(y);
    SplitOnceAt(x, y, '-');
    assert t == x + ['-'] + y;
    assert t[0] == x[0] && t[|t| - 1] == y[|y| - 1];
    TrimFixed(t);
    DigitsExclude(x, ',');
    DigitsExclude(y, ',');
    SplitPlain(t, ',');
    assert ExpandPieces([t]) == PieceTokens(t) + ExpandPieces([]);
  }

  /** A range `x-y` of digit strings yields every integer from min to max,
      in ascending order, each written as `str(n)`. */
  lemma RangeContents(x: string, y: string)
    requires IsDigits(x) && IsDigits(y)
    ensures var lo := Min(Value(x), Value(y));
            var hi := Max(Value(x), Value(y));
            var r := ParseTokens(x + "-" + y);
            && |r| == hi - lo + 1
            && (forall k :: 0 <= k < |r| ==> r[k] == ShowNat(lo + k))
            && (forall n: nat :: ShowNat(n) in r <==> lo <= n <= hi)
  {
    RangeIsOnePiece(x, y);
    SpanMembers(Min(Value(x), Value(y)), Max(Value(x), Value(y)));
  }

  lemma SpanMembers(lo: nat, hi: nat)
    requires lo <= hi
    ensures forall n: nat :: ShowNat(n) in Span(lo, hi) <==> lo <= n <= hi
  {
    var r := Span(lo, hi);
    forall n: nat
      ensures ShowNat(n) in r <==> lo <= n <= hi
    {
      if ShowNat(n) in r {
        var k :| 0 <= k < |r| && r[k] == ShowNat(n);
        ShowNatInjective(n, lo + k);
      }
      if lo <= n <= hi {
        assert r[n - lo] == ShowNat(n);
      }
    }
  }

  /** `"5-3"` and `"3-5"` give the same output. */
  lemma RangeSymmetric(x: string, y: string)
    requires IsDigits(x) && IsDigits(y)
    ensures ParseTokens(x + "-" + y) == ParseTokens(y + "-" + x)
  {
    RangeIsOnePiece(x, y);
    RangeIsOnePiece(y, x);
  }

  /** A field holding a single token gives exactly that token. */
  lemma TokenParsesToItself(t: string)
    requires IsToken(t)
    ensures ParseTokens(t) == [t]
  {
    TrimFixed(t);
    SplitPlain(t, ',');
    ExpandSingle(t);
  }

  /** Stripping keeps every character that is not blank. */
  lemma KeptByTrim(s: string, c: char)
    requires c in s && !IsSpace(c)
    ensures c in Trim(s)
  {
    var pre, post := TrimParts(s);
    SpacesExclude(pre, c);
    SpacesExclude(post, c);
  }

  lemma NotDigits(s: string, c: char)
    requires c in s && !IsDigit(c)
    ensures !IsDigits(s)
  {
    var k :| 0 <= k < |s| && s[k] == c;
  }

  /** Only the first hyphen splits: a stripped, comma-free piece whose right
      side holds another hyphen, such as `1-2-3`, is kept verbatim. */
  lemma DoubleHyphenIsVerbatim(x: string, y: string)
    requires '-' !in x && '-' in y
    requires ',' !in x && ',' !in y
    requires |x| > 0 ==> !IsSpace(x[0])
    requires !IsSpace(y[|y| - 1])
    ensures ParseTokens(x + "-" + y) == [x + "-" + y]
  {
    var t := x + "-" + y;
    assert t == x + ['-'] + y;
    SplitOnceAt(x, y, '-');
    KeptByTrim(y, '-');
    NotDigits(Trim(y), '-');
    assert t[0] == if |x| > 0 then x[0] else '-';
    assert t[|t| - 1] == y[|y| - 1];
    assert ',' !in t;
    TokenParsesToItself(t);
  }

  /** A leading hyphen leaves an empty left side, so a stripped, comma-free
      piece such as `-5` is kept verbatim. */
  lemma LeadingHyphenIsVerbatim(y: string)
    requires ',' !in y
    requires |y| > 0 ==> !IsSpace(y[|y| - 1])
    ensures ParseTokens("-" + y) == ["-" + y]
  {
    var t := "-" + y;
    assert t == "" + ['-'] + y;
    SplitOnceAt("", y, '-');
    TrimFixed("");
    assert t[|t| - 1] == if |y| > 0 then y[|y| - 1] else '-';
    assert ',' !in t;
    TokenParsesToItself(t);
  }

  /** Whitespace around the whole field does not matter. */
  lemma ParsePadded(pre: string, t: string, post: string)
    requires AllSpace(pre) && AllSpace(post)
    ensures ParseTokens(pre + t + post) == ParseTokens(t)
  {
    TrimPadded(pre, t, post);
  }

  /** Pieces are stripped, empty pieces skipped, duplicates kept: the field
      ` t , ,t` gives t twice. */
  lemma DuplicatesKept(t: string)
    requires |t| > 0 && ',' !in t && '-' !in t
    requires !IsSpace(t[0]) && !IsSpace(t[|t| - 1])
    ensures ParseTokens(" " + t + " , ," + t) == [t, t]
  {
    assert " " + t + " , ," + t == (" " + t + " ") + "," + (" " + "," + t);
    ParseConcat(" " + t + " ", " " + "," + t);
    ParseConcat(" ", t);
    assert AllSpace(" ");
    ParsePadded(" ", t, " ");
    PlainToken(t);
  }

  /** A piece without comma, hyphen or surrounding blanks stands for itself. */
  lemma PlainToken(t: string)
    requires |t| > 0 && ',' !in t && '-' !in t
    requires !IsSpace(t[0]) && !IsSpace(t[|t| - 1])
    ensures ParseTokens(t) == [t]
  {
    TrimFixed(t);
    SplitPlain(t, ',');
    ExpandSingle(t);
  }

  lemma ParseThree(a: string, b: string, c: string)
    ensures ParseTokens(a + "," + b + "," + c) == ParseTokens(a) + ParseTokens(b) + ParseTokens(c)
  {
    assert a + "," + b + "," + c == a + "," + (b + "," + c);
    ParseConcat(a, b + "," + c);
    ParseConcat(b, c);
  }

  /** A field of two plain references and a range, such as `A,2,1-3`: the
      plain ones verbatim, then the range expanded, in that order. */
  lemma MixedField(a: string, b: string, x: string, y: string)
    requires |a| > 0 && ',' !in a && '-' !in a && !IsSpace(a[0]) && !IsSpace(a[|a| - 1])
    requires |b| > 0 && ',' !in b && '-' !in b && !IsSpace(b[0]) && !IsSpace(b[|b| - 1])
    requires IsDigits(x) && IsDigits(y)
    ensures ParseTokens(a + "," + b + "," + (x + "-" + y)) ==
            [a, b] + Span(Min(Value(x), Value(y)), Max(Value(x), Value(y)))
  {
    ParseThree(a, b, x + "-" + y);
    PlainToken(a);
    PlainToken(b);
    RangeIsOnePiece(x, y);
  }
}

=== FILE: wrappers.dfy ===
/** Failure-carrying result types shared by the model. */
module Wrappers {

  /** A value that may be absent: a missing JSON key, a field that does not parse. */
  datatype Option<+T> = None | Some(value: T)

  /** The outcome of a computation that Python may abort with an exception. */
  datatype Result<+T, +E> = Ok(value: T) | Err(error: E)

  /** The exceptions the modelled helpers can raise. The IndexError of
      `number_to_words` is the `None` of an `Option` instead. */
  datatype Failure =
    | TypeError       // `<` between an int and a str while sorting; iterating over null or a number
    | AttributeError  // `.get` on a value that is not a JSON object
}
